=== FILE: README.md ===
# High-Low Challenge+ and Two Truths and a Lie, in Dafny

This project models three casino-game scripts and proves what their
results mean.

- `high.py` batch-simulates High-Low Challenge+. A round draws two cards
  from a 52-card deck. The player guesses whether the second card is
  Higher, Lower or a Tie with the first. A correct Higher or Lower guess
  pays an entry of the payout table, keyed by the first card's value. A
  correct Tie pays 8. Every round costs 2. Two strategies are simulated:
  random guesses, and the guess with the largest expected value for the
  first card. Each simulation reports win, loss and net totals, a
  breakdown by first card and a breakdown by guess.
- `playHigh.py` is the interactive version of the same game. A game object
  keeps a deck, a history of settled rounds, a running balance and a round
  counter. At the end it prints and saves an integer summary.
- `two.py` rolls three dice and evaluates three statements: "at least two
  the same", "sum >= 11" and "all different". It finds the first false
  statement and counts how often a random guess names it.

The modules follow the programs:

- `Cards`: card names and values, the payout table, the deck and its
  shuffle. Shared by both High-Low scripts.
- `HighLow`: one round of `high.py`.
- `Optimal`: the expected-value rule.
- `Tallies`: default-dictionary tallies.
- `Simulation`: the two `high.py` simulations.
- `Session`: `playHigh.py`.
- `TwoTruths`: `two.py`.
- `Seqs` and `Wrappers`: small sequence facts and `Option`.

Randomness is an input. `random.shuffle` is modelled as CPython's
Fisher-Yates exchange. The random indices it draws are given as a
sequence, and the shuffle is proved to be a permutation. Random guesses
and dice are given as sequences of inputs.

The expected values of `high.py` are floats with denominator 51. Here they
are exact integers scaled by 51, proved equal to 51 times the source's
formulas evaluated over the reals, so comparing them picks what exact
comparison of the source's values picks. The rule works out to Higher for first
values up to 7 and Lower above 7, and Tie is never chosen. On a 7, Higher
and Lower are equal, and the first-in-order rule picks Higher. The
source's remaining-card counts take one card off both the higher and the
lower count. They add up to 49 rather than 51, and they are -1 for a King
(higher) or an Ace (lower). The model keeps these counts as written.

`find_false_statement`'s docstring, and the game it describes, say there
is always exactly one false statement. That is not so. "At least two the
same" and "all different" always disagree, so at least one statement is
false. Exactly one is false when the sum is 11 or more. Below 11, "sum >=
11" is false as well, and `list.index` returns the lower index:

- three aces return 1;
- one, two, three returns 0.

The model follows the code. `TwoTruths.ExactlyOneFalseIff`,
`ThreeAcesTwoFalse` and `OneTwoThreeTwoFalse` state the discrepancy.

## Model

| member | source | states |
|---|---|---|
| Cards.Value | high.py:13-16 | every card value lies in 1..13 |
| Cards.ValuePosition | high.py:13-18 | a card's value is its one-based position in CARD_NAMES |
| Cards.ValueBijective | high.py:13-18 | CARD_VALUES is one-to-one, and position k of CARD_NAMES holds value k+1 |
| Cards.CardNamesDistinct | high.py:18 | CARD_NAMES lists every card name exactly once |
| Cards.GetPayout | high.py:52-54 | the payout for a first value is between 1 and 4, is 4 exactly for a 7, and equals the payout for 14 minus the value |
| Cards.PayoutTableDomain | high.py:25-39 | the table has a key exactly for the values 1..13, so every card's value is a key |
| Cards.PayoutTableShape | high.py:25-39 | the table is symmetric around 7, where it takes its unique maximum 4, and never drops below 1 |
| Cards.FreshOrderCount | high.py:47-49 | the unshuffled deck holds four copies of each listed name |
| Cards.ShuffleDown | high.py:50 | each step of the shuffle exchanges two positions, so the result keeps the length and the multiset of cards |
| Cards.Shuffle | high.py:50 | random.shuffle is a permutation of the deck |
| Cards.CreateDeck | high.py:45-50 | create_deck yields 52 cards with exactly four of every name (playHigh.py:37-41 is the same code) |
| Cards.Refill | high.py:58-60 | below the needed count the deck is replaced by a full deck; otherwise it is untouched; either way enough cards remain |
| HighLow.Classify | high.py:69-75 | the outcome is higher, lower or tie exactly when the second value is above, below or equal to the first |
| HighLow.ClassifySwap | high.py:69-75 | exchanging the two values turns higher into lower and keeps a tie |
| HighLow.Payout | high.py:77-85 | a round pays exactly when the guess matches the outcome; a matching Higher or Lower pays the table entry of the first value, a matching Tie pays 8, and 8 is paid exactly for a matching Tie |
| HighLow.Settle | high.py:66-98 | the round record keeps both cards and the guess, pays the table entry on a winning Higher/Lower and 8 on a winning Tie, pays 0 on a loss, and nets payout minus 2 (playHigh.py:53-85 settles the same way) |
| HighLow.NeverPays | high.py:80-83 | Higher on a King and Lower on an Ace never win |
| HighLow.WinStillLoses | high.py:80-87 | a winning Higher or Lower on an Ace or a King pays 1 and nets -1 |
| HighLow.DrawTwo | high.py:62-67 | the first card is the last card of the deck and the second card the one before it; the deck left behind is the rest |
| HighLow.PlayRound | high.py:56-99 | the round is settled by the rules with the given guess (a win pays the table entry of the first value on Higher/Lower and 8 on Tie, a loss pays 0, the net is payout minus 2); from a deck of two or more cards it draws the last card first and the one before it second and leaves the rest; a shorter deck is first replaced by a fresh shuffled deck and 50 cards remain; in every case the cards left plus the second and first card drawn are exactly the (possibly refilled) deck |
| HighLow.PlayRoundDeck | high.py:56-67 | a deck of two or more cards loses exactly its last two cards; a shorter deck is replaced and 50 cards remain; no card is lost or gained |
| Optimal.CountAbovePrefix | high.py:225 | among the first k card names, k − v have a value above v when k > v, and none otherwise |
| Optimal.CountBelowPrefix | high.py:226 | among the first k card names, min(k, v − 1) have a value below v |
| Optimal.RemainingCounts | high.py:225-228 | higher_count is 4(13 − v) − 1, lower_count is 4(v − 1) − 1 and tie_count is 3; together they make 49 |
| Optimal.ScaledEvsMeaning | high.py:234-236 | each scaled value is exactly 51 times ev_higher, ev_lower or ev_tie as the source writes them, evaluated over the reals |
| Optimal.EvsOfMeaning | high.py:234-236 | for any remaining counts and payout, the scaled value of each guess is 51 times the source's formula |
| Optimal.ScaledOrder | high.py:234-245 | comparing two scaled values decides exactly what comparing the source's real-valued expected values does |
| Optimal.Pick | high.py:238-245 | the chosen guess has the largest value, and every guess before it in the order Higher, Lower, Tie has a strictly smaller value |
| Optimal.PickUnique | high.py:238-245 | only one guess satisfies that characterisation |
| Optimal.OptimalChoice | high.py:223-245 | the optimal guess for a first value maximises the expected value, and ties go to the earliest guess in order |
| Optimal.OptimalChoiceReal | high.py:234-245 | the optimal guess has the largest of the source's real-valued expected values, and every guess before it in the order Higher, Lower, Tie has a strictly smaller one |
| Optimal.OptimalByValue | high.py:223-245 | the optimal guess is Higher for values up to 7 and Lower above 7, and never Tie |
| Optimal.SevenIsATie | high.py:234-243 | on a 7 the Higher and Lower values are equal and beat Tie, and Higher is chosen |
| Optimal.OptimalRound | high.py:214-248 | the round refills below two cards, draws the peeked card first, guesses optimally for it, and leaves the refilled deck without its last two cards |
| Optimal.PeekIsFirstDraw | high.py:215-220 | after the loop's refill, play_round does not refill again, and the peeked card is the one it draws first |
| Tallies.OfRound | high.py:137-141 | one round adds one play, a win exactly when the round won, and its net |
| Tallies.Bump | high.py:135-141 | updating a default-dictionary key adds the tally to that key, creates the key if needed, and leaves every other key as it was |
| Tallies.GetBump | high.py:135-149 | after an update, the updated key reads as before plus the tally and every other key reads as before |
| Tallies.SumOverBumpOnce | high.py:135-149 | adding a tally to a key listed once adds it to the sum over the listed keys |
| Simulation.AggregateTotals | high.py:128-133 | the folded totals count the winning rounds, split every round into a win or a loss, and add up the nets |
| Simulation.Record | high.py:127-149 | one round adds one win exactly when it won, one play and its net overall; adds its win or loss and its net to the tally of its first card and of its guess; makes the card remember the guess; and leaves every other entry as it was |
| Simulation.AggregateCardKeys | high.py:135-141 | the first-card breakdown has a key exactly for each first card seen, each with at least one play |
| Simulation.AggregateChoiceKeys | high.py:259-261 | a remembered guess exists exactly for each first card seen |
| Simulation.AggregateGuessKeys | high.py:114-118 | the guess breakdown always holds higher, lower and tie |
| Simulation.AggregateCardSum | high.py:135-141 | summed over all card names, the first-card tallies give the overall wins, losses and net, so they partition the rounds |
| Simulation.AggregateChoiceSum | high.py:143-149 | summed over the three guesses, the guess tallies give the overall wins, losses and net, so they partition the rounds |
| Simulation.AggregateCardTallies | high.py:135-141 | the tally under each card is the wins, losses and net of exactly the rounds whose first card it is; a card never seen reads as empty |
| Simulation.AggregateChoiceTallies | high.py:143-149 | the tally under each guess is the wins, losses and net of exactly the rounds that made that guess |
| Simulation.AggregateLastChoice | high.py:259-261 | when each guess depends only on the first card, the guess remembered for a card is the one the rule gives for it |
| Simulation.AggregateAccounts | high.py:120-149 | the folded totals account for the rounds: the overall counts, the key sets, and under every card and every guess the tally of exactly its own rounds |
| Simulation.RunRandomRounds | high.py:120-125 | every round of the random strategy is settled by the game's rules, paying the table entry of its first value on a winning Higher/Lower and 8 on a winning Tie |
| Simulation.RunRandomChoices | high.py:120-125 | every round of the random strategy makes the guess it was given |
| Simulation.RunOptimalRounds | high.py:214-248 | every round of the optimal strategy is settled by the rules, with the payout amounts of the table, and makes the optimal guess for its first card |
| Simulation.Breakdown | high.py:157-170 | each first-card entry is for a listed card and reports that card's table payout and tally |
| Simulation.BreakdownCovers | high.py:158-161 | every listed card that was seen has an entry |
| Simulation.BreakdownPlays | high.py:159-165 | the entries' plays add up to the plays of the listed cards |
| Simulation.BreakdownNet | high.py:159-170 | the entries' nets add up to the net of the listed cards |
| Simulation.BreakdownOrdered | high.py:158-159 | over names in increasing value order, the entries come in that order, each card at most once |
| Simulation.Summarize | high.py:151-191 | the report gives N simulations, the player's wins with house wins making up N, the total net and the guess breakdown, and each first-card entry reports its card's tally |
| Simulation.SummarizeTotals | high.py:151-155 | the report gives N rounds, the player's wins, and house wins of N minus those, with the total net |
| Simulation.SummarizeCards | high.py:157-170 | the first-card entries follow CARD_NAMES, one for exactly each card seen, each reporting the wins, losses, net and plays of that card's own rounds and the table payout for its value, and together they add up to N rounds and the total net |
| Simulation.SummarizeCardTallies | high.py:157-170 | each first-card entry reports the tally of the rounds whose first card is its card, and the entries follow CARD_NAMES |
| Simulation.SummarizeCardPayouts | high.py:164 | every first-card entry quotes the PAYOUT_TABLE entry for its card's value |
| Simulation.SummarizeOptimalChoices | high.py:281-295 | under the optimal rule every entry reports the optimal guess for its card |
| Simulation.SummarizeGuesses | high.py:143-149 | the guess breakdown holds, under each of the three guesses, the tally of the rounds that made it, and the three add up to N plays and the total net |
| Simulation.SummarizeGuessTallies | high.py:143-149 | the report's tally under each guess is that of the rounds that made it |
| Simulation.SummarizeGuessSums | high.py:143-149 | the three guess tallies add up to N plays and the total net |
| Simulation.SummarizeAccounts | high.py:151-191 | the report built from the folded totals has the right totals, first-card entries in card order each with its own card's rounds and its table payout, and guess tallies each with its own guess's rounds |
| Simulation.PlayRandom | high.py:120-149 | the loop's totals equal the fold of the rounds played one after the other from the deck each previous round left |
| Simulation.SimulateRandom | high.py:102-193 | the random-strategy report counts one simulation per input round and accounts for its rounds card by card (with each card's table payout) and guess by guess, and reports no optimal guess |
| Simulation.PlayOptimal | high.py:214-273 | the loop's totals equal the fold of the optimal rounds played one after the other |
| Simulation.OptimalReport | high.py:275-316 | the optimal strategy's report accounts for its rounds card by card (with each card's table payout) and guess by guess and gives each card its optimal guess |
| Simulation.SimulateOptimal | high.py:196-318 | the optimal-strategy report counts one simulation per shuffle, accounts for its rounds card by card (with each card's table payout) and guess by guess, and every first-card entry reports the optimal guess for that card |
| Session.Init | playHigh.py:30-35 | a new game has a full shuffled deck, no history, a zero balance and no rounds, and satisfies the class invariant |
| Session.PlayRound | playHigh.py:46-89 | play_round counts the round, pops the second card (after replacing an empty deck), appends one entry settled with the table payout for the first value or 8 for a winning Tie, and moves the balance by the round's net |
| Session.PlayRoundValid | playHigh.py:46-89 | play_round keeps the invariant: one numbered entry per round, each with cost 2 and the running balance, and the balance is the sum of the nets |
| Session.MainStep | playHigh.py:179-192 | one pass of the main loop plays one more round and appends exactly one history entry |
| Session.MainStepDrawsTwo | playHigh.py:180-192 | because the loop refills below two cards, the pass takes the last two cards of the refilled deck and plays the same round as high.py's play_round |
| Session.MainStepValid | playHigh.py:179-192 | a pass of the main loop keeps the invariant |
| Session.PlayMoves | playHigh.py:179-193 | any number of passes counts one round per pass and only appends, one history entry per pass |
| Session.PlayMovesValid | playHigh.py:178-193 | any number of passes keeps the invariant, counts every pass, and only appends to the history |
| Session.Summarize | playHigh.py:91-115 | there is a summary exactly when the history is non-empty; it counts the history's rounds and winning rounds, sums its payouts, and reports the balance |
| Session.NetIsPayoutLessCost | playHigh.py:62-71 | the nets of settled rounds add up to the payouts less 2 per round |
| Session.SummaryBalances | playHigh.py:99-113 | for a valid game the balance is the history's payouts less 2 per round; a summary exists exactly after a round; it has as many rounds as the counter, the history's wins and payouts; wins and losses partition the rounds, with losses computed as in the final summary (playHigh.py:205-207); the cost is 2 per round; and the final balance is the payouts less the cost |
| Session.SessionSummary | playHigh.py:172-216 | after k passes from a fresh game, the summary reports k rounds, the wins and payouts of the history, and a balance of those payouts less 2k |
| TwoTruths.Sort3 | two.py:8 | sorting three dice yields them in ascending order with the same values |
| TwoTruths.EvaluateStatements | two.py:6-19 | "at least two the same" holds exactly when the dice are not pairwise distinct, "all different" exactly when they are, and "sum >= 11" exactly when the sum is at least 11 |
| TwoTruths.IndexOf | two.py:26 | list.index gives the first position holding the value, and fails exactly when the value is absent |
| TwoTruths.FindFalseStatement | two.py:21-27 | the index is 0 exactly for distinct dice, 1 for a repeat with sum under 11, and 2 for a repeat with sum 11 or more |
| TwoTruths.StatementsComplementary | two.py:10-17 | the first and third statements always disagree, so some statement is false and the search never fails |
| TwoTruths.ExactlyOneFalseIff | two.py:21-27 | exactly one statement is false exactly when the sum is at least 11, and two are false otherwise |
| TwoTruths.ThreeAcesTwoFalse | two.py:21-27 | three aces make two statements false, and index 1 is returned |
| TwoTruths.OneTwoThreeTwoFalse | two.py:21-27 | one, two, three makes two statements false, and index 0 is returned |
| TwoTruths.PermutationInvariant | two.py:8-14 | reordering the dice changes neither the statements nor the answer |
| Seqs.DistinctSameElements | two.py:8-17 | sequences with the same elements are duplicate-free together, so reordering the dice keeps "all different" |
| Seqs.SumPermutation | two.py:14 | sequences with the same elements have the same sum, so reordering the dice keeps the sum |
| TwoTruths.OccurrencesPartition | two.py:39-55 | every game's false statement has index 0, 1 or 2, so the three counts partition the games, and so do the player's wins |
| TwoTruths.Count | two.py:49-55 | one game adds one player win or one house win to its index and changes no other index |
| TwoTruths.Gather | two.py:39-55 | the counted split only has keys 0, 1 and 2, each with at least one game |
| TwoTruths.GatherGathered | two.py:36-55 | the counted split has an entry exactly for each index that occurred, with the player's and the house's wins on it |
| TwoTruths.GatheredStep | two.py:44-55 | counting one more game keeps the split in step with the games |
| TwoTruths.CountGames | two.py:39-55 | the loop counts the games where the guess names the false index as player wins and the rest as house wins, and its split equals the game-by-game count |
| TwoTruths.BreakdownFrom | two.py:80-90 | the breakdown lists, with indices strictly increasing, an entry for each index present, with that index's statement name and counts |
| TwoTruths.BreakdownReports | two.py:80-90 | each reported entry has the occurrences and player wins of its index, and every index that occurred is reported |
| TwoTruths.BreakdownTotal | two.py:80-90 | together the entries' occurrences account for every game |
| TwoTruths.SimulateGame | two.py:29-92 | the report counts N games and the player's wins (the games where the guess names the false index), with house wins making up the rest, plus a breakdown in index order covering exactly the indices that occurred and summing to N |

## Left out

- Randomness: `random.shuffle`, `random.choice` and `random.randint` are
  not called. Their draws are inputs: shuffle indices, guesses, and dice
  with guesses. The model does not constrain the dice to 1..6 or the
  guesses to 0..2, because the counting holds for any values.
- Floating point: win rates, probabilities, house advantage, expected
  value per game, ROI and the formatted percentage strings are not
  modelled. The reports carry only their integer fields.
- Optimal.OptimalChoice: the source compares float expected values. The
  model compares them exactly, scaled by 51. For Higher and Lower on a 7
  the two floats are computed by the same formula from the same counts, so
  they are equal as well.
- Simulation.SimulateRandom: requires N > 0, as every simulation does,
  because the source divides by N. Stats tracks the guess last made on
  each card for both strategies, but only the optimal report shows it.
- Session.PlayRound: requires a first value that is a table key. With
  any other value the source raises a KeyError only when a matching Higher
  or Lower guess looks up the payout, after the round has been counted and
  a card popped; a Tie or a missed guess settles normally (a first value
  of 0 with Tie pays 0 and nets -2). `main` only passes
  `CARD_VALUES[first_card]` (playHigh.py:184,192), so neither case arises.
- Player input and I/O: the choice read in `get_player_choice` is an
  input of each pass. Printing, `display_header`, `display_round`, the
  JSON dump, file names, timestamps and the SIGINT handler are left out.
  The main loop's infinite iteration is modelled as any finite sequence of
  passes.
- TwoTruths.Roll: the dice are a length-3 sequence. The source's
  three-way unpacking fails on any other length.
- `__main__` blocks, and code outside the named game logic, are not
  modelled.

=== FILE: cards.dfy ===
/** Card names, their values, the Higher/Lower payout table, and the
    52-card deck with its shuffle. Decks in this game carry ranks only; no
    suit is ever recorded. */
module Cards {
  import opened Seqs

  /** The thirteen card names. */
  datatype Name = Ace | Two | Three | Four | Five | Six | Seven
                | Eight | Nine | Ten | Jack | Queen | King

  /** The names in the order the deck is built from (CARD_NAMES). */
  const CardNames: seq<Name> :=
    [Ace, Two, Three, Four, Five, Six, Seven, Eight, Nine, Ten, Jack, Queen, King]

  /** What one round costs the player. */
  const CostToPlay: int := 2

  /** The flat payout for a correct Tie guess. */
  const PayoutTie: int := 8

  /** The number of cards in a full deck. */
  const DeckSize: nat := 52

  /** Payouts for a correct Higher or Lower guess, keyed by the first card's value. */
  const PayoutTable: map<int, int> :=
    map[1 := 1, 2 := 2, 3 := 2, 4 := 3, 5 := 3, 6 := 3, 7 := 4,
        8 := 3, 9 := 3, 10 := 3, 11 := 2, 12 := 2, 13 := 1]

  /** The value of a card (CARD_VALUES): Ace is 1, Jack 11, Queen 12, King 13. */
  function Value(n: Name): (v: int)
    ensures 1 <= v <= 13
  {
    match n
    case Ace => 1
    case Two => 2
    case Three => 3
    case Four => 4
    case Five => 5
    case Six => 6
    case Seven => 7
    case Eight => 8
    case Nine => 9
    case Ten => 10
    case Jack => 11
    case Queen => 12
    case King => 13
  }

  /** A card's value is its one-based position in CardNames. */
  lemma ValuePosition(n: Name)
    ensures CardNames[Value(n) - 1] == n
  {
  }

  /** Every position of CardNames holds the card of the next value. */
  lemma NamesValues(k: int)
    requires 0 <= k < |CardNames|
    ensures Value(CardNames[k]) == k + 1
  {
  }

  /** CARD_VALUES is one-to-one and onto 1..13. */
  lemma ValueBijective()
    ensures forall n, m: Name :: Value(n) == Value(m) ==> n == m
    ensures forall k :: 0 <= k < |CardNames| ==> Value(CardNames[k]) == k + 1
  {
    forall k | 0 <= k < |CardNames|
      ensures Value(CardNames[k]) == k + 1
    {
      NamesValues(k);
    }
  }

  /** No name appears twice in CardNames. */
  lemma CardNamesDistinct()
    ensures Distinct(CardNames)
    ensures forall n: Name :: n in CardNames
  {
    forall i, j | 0 <= i < j < |CardNames|
      ensures CardNames[i] != CardNames[j]
    {
      NamesValues(i);
      NamesValues(j);
    }
    forall n: Name
      ensures n in CardNames
    {
      ValuePosition(n);
    }
  }

  /** get_payout: the table entry for a first-card value. A value outside
      1..13 is a key error in the source; callers never pass one. */
  function GetPayout(v: int): (p: int)
    requires v in PayoutTable
    ensures 1 <= p <= 4
    ensures p == 4 <==> v == 7
    ensures 14 - v in PayoutTable && p == PayoutTable[14 - v]
  {
    PayoutTable[v]
  }

  /** The table is defined exactly on the card values 1..13. */
  lemma PayoutTableDomain()
    ensures forall v: int :: v in PayoutTable <==> 1 <= v <= 13
    ensures forall n: Name :: Value(n) in PayoutTable
  {
  }

  /** The table is symmetric around 7, where it takes its unique maximum. */
  lemma PayoutTableShape(v: int)
    requires 1 <= v <= 13
    ensures 1 <= PayoutTable[v] <= PayoutTable[7] == 4
    ensures PayoutTable[v] == PayoutTable[14 - v]
    ensures PayoutTable[v] == 4 ==> v == 7
  {
  }

  /** The unshuffled deck built from a list of names: four copies of each
      name, in list order, so position i holds the name at i / 4. */
  function FreshOrder<T>(names: seq<T>): (d: seq<T>)
    ensures |d| == 4 * |names|
  {
    seq(4 * |names|, i requires 0 <= i < 4 * |names| => names[i / 4])
  }

  /** The deck starts with the four copies of the first name, followed by
      the deck built from the remaining names. */
  lemma FreshOrderCons<T>(names: seq<T>)
    requires names != []
    ensures FreshOrder(names) == [names[0], names[0], names[0], names[0]] + FreshOrder(names[1..])
  {
    var x := names[0];
    var l := FreshOrder(names);
    var r := [x, x, x, x] + FreshOrder(names[1..]);
    forall i | 0 <= i < |l|
      ensures l[i] == r[i]
    {
      if i >= 4 {
        assert (i - 4) / 4 == i / 4 - 1;
      }
    }
  }

  /** The unshuffled deck holds four copies of the list it is built from. */
  lemma {:induction false} FreshOrderCount<T>(names: seq<T>)
    ensures var m := multiset(names); multiset(FreshOrder(names)) == m + m + m + m
  {
    if names != [] {
      var x := names[0];
      var tail := names[1..];
      FreshOrderCount(tail);
      FreshOrderCons(names);
      assert names == [x] + tail;
    }
  }

  /** The draws of one shuffle of a sequence of n elements: draws[k] is the
      random index in [0, n-1-k] chosen for position n-1-k. */
  predicate ShuffleDraws(draws: seq<nat>, n: nat)
  {
    && n > 0
    && |draws| == n - 1
    && forall k :: 0 <= k < |draws| ==> draws[k] <= n - 1 - k
  }

  /** random.shuffle: for i from the last position down to 1, exchange
      position i with a drawn position j in [0, i]. */
  function ShuffleDown<T>(s: seq<T>, i: nat, draws: seq<nat>): (r: seq<T>)
    requires i < |s| && |draws| == i
    requires forall k :: 0 <= k < i ==> draws[k] <= i - k
    ensures |r| == |s| && multiset(r) == multiset(s)
    decreases i
  {
    if i == 0 then s
    else ShuffleDown(Swap(s, i, draws[0]), i - 1, draws[1..])
  }

  function Shuffle<T>(s: seq<T>, draws: seq<nat>): (r: seq<T>)
    requires ShuffleDraws(draws, |s|)
    ensures |r| == |s| && multiset(r) == multiset(s)
  {
    ShuffleDown(s, |s| - 1, draws)
  }

  /** A full deck: 52 cards, four of each name. */
  predicate FullDeck(d: seq<Name>)
  {
    |d| == DeckSize && forall n: Name :: multiset(d)[n] == 4
  }

  /** create_deck: four copies of each name, shuffled. */
  function CreateDeck(draws: seq<nat>): (d: seq<Name>)
    requires ShuffleDraws(draws, DeckSize)
    ensures FullDeck(d)
  {
    var ordered := FreshOrder(CardNames);
    assert forall n: Name :: multiset(ordered)[n] == 4 by {
      forall n: Name
        ensures multiset(ordered)[n] == 4
      {
        FreshOrderCount(CardNames);
        CardNamesDistinct();
        DistinctCount(CardNames, n);
      }
    }
    Shuffle(ordered, draws)
  }

  /** Refills the deck with a fresh shuffled one when fewer than `need`
      cards remain; otherwise leaves it alone. */
  function Refill(deck: seq<Name>, need: nat, draws: seq<nat>): (d: seq<Name>)
    requires need <= DeckSize
    requires |deck| < need ==> ShuffleDraws(draws, DeckSize)
    ensures |d| >= need
    ensures |deck| >= need ==> d == deck
    ensures |deck| < need ==> FullDeck(d)
  {
    if |deck| < need then CreateDeck(draws) else deck
  }
}

=== FILE: highlow.dfy ===
/** One round of High-Low: the guess, the outcome of comparing two cards,
    the payout, and the round as high.py plays it from its own deck. */
module HighLow {
  import opened Cards

  /** The player's guess about the second card. */
  datatype Choice = Higher | Lower | Tie

  /** How the second card compares with the first. */
  datatype Outcome = WentHigher | WentLower | Tied

  /** The guesses in the order the source lists (and breaks ties among) them. */
  const ChoiceOrder: seq<Choice> := [Higher, Lower, Tie]

  /** The outcome of a round, decided only by comparing the second value
      with the first. */
  function Classify(firstValue: int, secondValue: int): (o: Outcome)
    ensures o == WentHigher <==> secondValue > firstValue
    ensures o == WentLower <==> secondValue < firstValue
    ensures o == Tied <==> secondValue == firstValue
  {
    if secondValue > firstValue then WentHigher
    else if secondValue < firstValue then WentLower
    else Tied
  }

  /** Swapping the two cards swaps Higher and Lower and keeps a tie. */
  lemma ClassifySwap(a: int, b: int)
    ensures Classify(a, b) == WentHigher <==> Classify(b, a) == WentLower
    ensures Classify(a, b) == Tied <==> Classify(b, a) == Tied
  {
  }

  /** The guess names the outcome that happened. */
  predicate Matches(c: Choice, o: Outcome)
  {
    match c
    case Higher => o == WentHigher
    case Lower => o == WentLower
    case Tie => o == Tied
  }

  /** The payout of a round: the table entry of the first value for a
      matching Higher or Lower, the flat tie payout for a matching Tie, and
      nothing for a guess that does not match. */
  function Payout(c: Choice, firstValue: int, o: Outcome): (p: int)
    requires firstValue in PayoutTable
    ensures p > 0 <==> Matches(c, o)
    ensures p in {0, 1, 2, 3, 4, PayoutTie}
    ensures p == PayoutTie <==> c == Tie && o == Tied
    ensures Matches(c, o) && c != Tie ==> p == PayoutTable[firstValue]
  {
    if c == Higher && o == WentHigher then GetPayout(firstValue)
    else if c == Lower && o == WentLower then GetPayout(firstValue)
    else if c == Tie && o == Tied then PayoutTie
    else 0
  }

  /** The record the source returns for one round. */
  datatype RoundResult = RoundResult(
    firstCard: Name,
    firstValue: int,
    secondCard: Name,
    secondValue: int,
    choice: Choice,
    outcome: Outcome,
    payout: int,
    netResult: int,
    win: bool)

  /** The facts every settled round satisfies, stated without reference to
      how the round was computed. */
  predicate WellFormed(r: RoundResult)
  {
    && r.secondValue == Value(r.secondCard)
    && 1 <= r.firstValue <= 13
    && (r.win <==> Matches(r.choice, r.outcome))
    && (r.win <==> r.payout > 0)
    && (r.win && r.choice != Tie ==> r.firstValue in PayoutTable && r.payout == PayoutTable[r.firstValue])
    && (r.win && r.choice == Tie ==> r.payout == PayoutTie)
    && r.netResult == r.payout - CostToPlay
    && r.netResult in {-2, -1, 0, 1, 2, 6}
    && (r.outcome == WentHigher <==> r.secondValue > r.firstValue)
    && (r.outcome == WentLower <==> r.secondValue < r.firstValue)
  }

  /** The number of winning rounds. */
  function CountWins(rs: seq<RoundResult>): (n: nat)
    ensures n <= |rs|
  {
    if rs == [] then 0
    else CountWins(rs[..|rs| - 1]) + (if rs[|rs| - 1].win then 1 else 0)
  }

  /** The sum of the rounds' net results. */
  function SumNet(rs: seq<RoundResult>): int
  {
    if rs == [] then 0 else SumNet(rs[..|rs| - 1]) + rs[|rs| - 1].netResult
  }

  /** Settles a round once both cards are known: classify, price, and
      subtract the cost of playing. */
  function Settle(c: Choice, firstCard: Name, firstValue: int, secondCard: Name): (r: RoundResult)
    requires firstValue in PayoutTable
    ensures WellFormed(r)
    ensures r.firstCard == firstCard && r.firstValue == firstValue
    ensures r.secondCard == secondCard && r.choice == c
    ensures r.win && c != Tie ==> r.payout == PayoutTable[firstValue]
    ensures r.win && c == Tie ==> r.payout == PayoutTie
    ensures !r.win ==> r.payout == 0
  {
    PayoutTableDomain();
    var secondValue := Value(secondCard);
    var outcome := Classify(firstValue, secondValue);
    var payout := Payout(c, firstValue, outcome);
    RoundResult(firstCard, firstValue, secondCard, secondValue, c, outcome,
                payout, payout - CostToPlay, payout > 0)
  }

  /** Higher on a King and Lower on an Ace can never pay. */
  lemma NeverPays(firstCard: Name, secondCard: Name)
    ensures !Settle(Higher, firstCard, 13, secondCard).win
    ensures !Settle(Lower, firstCard, 1, secondCard).win
  {
  }

  /** A winning Higher or Lower on an Ace or a King pays 1 and still loses
      one unit overall. */
  lemma WinStillLoses(c: Choice, firstValue: int, firstCard: Name, secondCard: Name)
    requires firstValue == 1 || firstValue == 13
    requires c != Tie
    ensures var r := Settle(c, firstCard, firstValue, secondCard);
      r.win ==> r.payout == 1 && r.netResult == -1
  {
  }

  /** Pops the first card and then the second card from the end of a deck
      holding two or more cards, and settles the round. */
  function DrawTwo(d: seq<Name>, c: Choice): (res: (seq<Name>, RoundResult))
    requires |d| >= 2
    ensures var (rest, r) := res;
      && WellFormed(r)
      && r.firstCard == d[|d| - 1] && r.secondCard == d[|d| - 2]
      && r.firstValue == Value(r.firstCard)
      && r.choice == c
      && rest + [r.secondCard, r.firstCard] == d
  {
    var first := d[|d| - 1];
    var afterFirst := d[..|d| - 1];
    var second := afterFirst[|afterFirst| - 1];
    var rest := afterFirst[..|afterFirst| - 1];
    PayoutTableDomain();
    assert rest + [second, first] == d;
    (rest, Settle(c, first, Value(first), second))
  }

  /** play_round in high.py: refill the deck when fewer than two cards
      remain, then draw two cards and settle. Returns the deck left behind
      and the round record. */
  function PlayRound(deck: seq<Name>, c: Choice, draws: seq<nat>): (res: (seq<Name>, RoundResult))
    requires |deck| < 2 ==> ShuffleDraws(draws, DeckSize)
    ensures WellFormed(res.1) && res.1.choice == c
    ensures res.1.firstValue == Value(res.1.firstCard)
    ensures |deck| >= 2 ==> && res.0 == deck[..|deck| - 2]
                            && res.1.firstCard == deck[|deck| - 1]
                            && res.1.secondCard == deck[|deck| - 2]
    ensures |deck| < 2 ==> |res.0| == DeckSize - 2
    ensures res.0 + [res.1.secondCard, res.1.firstCard] == Refill(deck, 2, draws)
  {
    var d := Refill(deck, 2, draws);
    var res := DrawTwo(d, c);
    assert d == res.0 + [res.1.secondCard, res.1.firstCard];
    res
  }

  /** A round taken from a deck holding two or more cards leaves the deck
      without its last two cards and changes nothing else; a shorter deck
      is first replaced, leaving fifty cards. */
  lemma {:induction false} PlayRoundDeck(deck: seq<Name>, c: Choice, draws: seq<nat>)
    requires |deck| < 2 ==> ShuffleDraws(draws, DeckSize)
    ensures var (rest, r) := PlayRound(deck, c, draws);
      && (|deck| >= 2 ==> rest == deck[..|deck| - 2]
                          && r.firstCard == deck[|deck| - 1]
                          && r.secondCard == deck[|deck| - 2])
      && (|deck| < 2 ==> |rest| == DeckSize - 2)
      && multiset(rest) + multiset{r.firstCard, r.secondCard} == multiset(Refill(deck, 2, draws))
  {
    var d := Refill(deck, 2, draws);
    var (rest, r) := PlayRound(deck, c, draws);
    assert d == rest + [r.secondCard, r.firstCard];
    assert multiset(d) == multiset(rest) + multiset([r.secondCard, r.firstCard]);
    if |deck| >= 2 {
      assert d == deck;
      assert rest == d[..|d| - 2];
    }
  }
}

=== FILE: optimal.dfy ===
/** The expected-value choice rule of high.py's optimal strategy. The
    source computes each expected value as a float with denominator 51;
    here every value is kept exactly, multiplied by 51. */
module Optimal {
  import opened Cards
  import opened HighLow

  /** The number of cards the source divides by. */
  const TotalRemaining: int := 51

  /** How many of the listed card names have a value above v. */
  function CountAbove(names: seq<Name>, v: int): (n: nat)
    ensures n <= |names|
  {
    if names == [] then 0
    else CountAbove(names[..|names| - 1], v) + (if Value(names[|names| - 1]) > v then 1 else 0)
  }

  /** How many of the listed card names have a value below v. */
  function CountBelow(names: seq<Name>, v: int): (n: nat)
    ensures n <= |names|
  {
    if names == [] then 0
    else CountBelow(names[..|names| - 1], v) + (if Value(names[|names| - 1]) < v then 1 else 0)
  }

  /** Among the first k names, those above v are the values v+1..k. */
  lemma {:induction false} CountAbovePrefix(k: nat, v: int)
    requires k <= |CardNames| && 0 <= v
    ensures CountAbove(CardNames[..k], v) == if k > v then k - v else 0
  {
    if k > 0 {
      CountAbovePrefix(k - 1, v);
      assert CardNames[..k][..k - 1] == CardNames[..k - 1];
      NamesValues(k - 1);
    }
  }

  /** Among the first k names, those below v are the values 1..min(k, v-1). */
  lemma {:induction false} CountBelowPrefix(k: nat, v: int)
    requires k <= |CardNames| && 1 <= v
    ensures CountBelow(CardNames[..k], v) == if k < v - 1 then k else v - 1
  {
    if k > 0 {
      CountBelowPrefix(k - 1, v);
      assert CardNames[..k][..k - 1] == CardNames[..k - 1];
      NamesValues(k - 1);
    }
  }

  /** The remaining-card counts the source assumes after the first card. */
  datatype Counts = Counts(higher: int, lower: int, tie: int)

  /** higher_count, lower_count and tie_count: both directional counts take
      one card off for the first card, so the three add up to 49, not 51. */
  function RemainingCounts(v: int): (c: Counts)
    requires 1 <= v <= 13
    ensures c.higher == 4 * (13 - v) - 1
    ensures c.lower == 4 * (v - 1) - 1
    ensures c.tie == 3
    ensures c.higher + c.lower + c.tie == TotalRemaining - 2
  {
    CountAbovePrefix(|CardNames|, v);
    CountBelowPrefix(|CardNames|, v);
    assert CardNames[..|CardNames|] == CardNames;
    Counts(CountAbove(CardNames, v) * 4 - 1, CountBelow(CardNames, v) * 4 - 1, 3)
  }

  /** The three expected values, each multiplied by 51. */
  datatype Evs = Evs(higher: int, lower: int, tie: int)

  /** The expected value of a guess, multiplied by 51. */
  function EvOf(e: Evs, c: Choice): int
  {
    match c
    case Higher => e.higher
    case Lower => e.lower
    case Tie => e.tie
  }

  /** The three values for remaining counts n and Higher/Lower payout p,
      times 51: the winning count times the payout, minus the losing count
      times the cost. */
  function EvsOf(n: Counts, p: int): Evs
  {
    Evs(n.higher * p - (n.lower + n.tie) * CostToPlay,
        n.lower * p - (n.higher + n.tie) * CostToPlay,
        n.tie * PayoutTie - (n.higher + n.lower) * CostToPlay)
  }

  /** ev_higher, ev_lower and ev_tie of the source, times 51. */
  function ScaledEvs(v: int): Evs
    requires 1 <= v <= 13
  {
    EvsOf(RemainingCounts(v), GetPayout(v))
  }

  /** The source's formula for the value of guess c, over the reals
      instead of floats. */
  function RealEvOf(n: Counts, p: int, c: Choice): real
  {
    var total := TotalRemaining as real;
    var cost := CostToPlay as real;
    match c
    case Higher => (n.higher as real / total) * p as real - (n.lower + n.tie) as real / total * cost
    case Lower => (n.lower as real / total) * p as real - (n.higher + n.tie) as real / total * cost
    case Tie => (n.tie as real / total) * PayoutTie as real - (n.higher + n.lower) as real / total * cost
  }

  /** ev_higher, ev_lower and ev_tie exactly as the source writes them,
      evaluated over the reals instead of floats. */
  function RealEv(v: int, c: Choice): real
    requires 1 <= v <= 13
  {
    RealEvOf(RemainingCounts(v), GetPayout(v), c)
  }

  /** Each scaled value is the source's value times 51, whatever the counts. */
  lemma EvsOfMeaning(n: Counts, p: int, c: Choice)
    ensures EvOf(EvsOf(n, p), c) as real == RealEvOf(n, p, c) * TotalRemaining as real
  {
    match c
    case Higher => Rescale(n.higher, p, n.lower + n.tie, CostToPlay);
    case Lower => Rescale(n.lower, p, n.higher + n.tie, CostToPlay);
    case Tie => Rescale(n.tie, PayoutTie, n.higher + n.lower, CostToPlay);
  }

  /** Each scaled value is the source's expected value times 51. */
  lemma ScaledEvsMeaning(v: int, c: Choice)
    requires 1 <= v <= 13
    ensures EvOf(ScaledEvs(v), c) as real == RealEv(v, c) * TotalRemaining as real
  {
    EvsOfMeaning(RemainingCounts(v), GetPayout(v), c);
  }

  /** Multiplying a value of the source's shape by the divisor clears it. */
  lemma Rescale(win: int, pay: int, loss: int, cost: int)
    ensures ((win as real / TotalRemaining as real) * pay as real
              - loss as real / TotalRemaining as real * cost as real) * TotalRemaining as real
            == (win * pay - loss * cost) as real
  {
    var t := TotalRemaining as real;
    assert (win as real / t) * pay as real * t == win as real * pay as real;
    assert loss as real / t * cost as real * t == loss as real * cost as real;
  }

  /** Scaling by 51 keeps the order of the values, so comparing the scaled
      integers decides exactly what comparing the source's values does. */
  lemma ScaledOrder(v: int, c: Choice, d: Choice)
    requires 1 <= v <= 13
    ensures EvOf(ScaledEvs(v), c) <= EvOf(ScaledEvs(v), d) <==> RealEv(v, c) <= RealEv(v, d)
    ensures EvOf(ScaledEvs(v), c) < EvOf(ScaledEvs(v), d) <==> RealEv(v, c) < RealEv(v, d)
  {
    ScaledEvsMeaning(v, c);
    ScaledEvsMeaning(v, d);
  }

  /** The position of a guess in the order Higher, Lower, Tie. */
  function Rank(c: Choice): (k: nat)
    ensures k < |ChoiceOrder| && ChoiceOrder[k] == c
  {
    match c
    case Higher => 0
    case Lower => 1
    case Tie => 2
  }

  /** The source's choice: take the maximum of the three values, then the
      first guess in the order Higher, Lower, Tie whose value equals it.
      The result has the largest value, and every guess before it in that
      order has a strictly smaller one. */
  function Pick(e: Evs): (c: Choice)
    ensures forall d: Choice :: EvOf(e, d) <= EvOf(e, c)
    ensures forall d: Choice :: Rank(d) < Rank(c) ==> EvOf(e, d) < EvOf(e, c)
  {
    var best := Max(Max(e.higher, e.lower), e.tie);
    if best == e.higher then Higher
    else if best == e.lower then Lower
    else Tie
  }

  function Max(a: int, b: int): int
  {
    if a >= b then a else b
  }

  /** Exactly one guess is the first maximum, so Pick is fully determined
      by its contract. */
  lemma PickUnique(e: Evs, c: Choice)
    requires forall d: Choice :: EvOf(e, d) <= EvOf(e, c)
    requires forall d: Choice :: Rank(d) < Rank(c) ==> EvOf(e, d) < EvOf(e, c)
    ensures c == Pick(e)
  {
    var p := Pick(e);
    assert EvOf(e, p) == EvOf(e, c);
  }

  /** The optimal strategy's guess for a first card of value v. */
  function OptimalChoice(v: int): (c: Choice)
    requires 1 <= v <= 13
    ensures forall d: Choice :: EvOf(ScaledEvs(v), d) <= EvOf(ScaledEvs(v), c)
    ensures forall d: Choice :: Rank(d) < Rank(c) ==> EvOf(ScaledEvs(v), d) < EvOf(ScaledEvs(v), c)
  {
    Pick(ScaledEvs(v))
  }

  /** The choice takes the largest of the source's expected values, and
      every guess before it in the order Higher, Lower, Tie has a strictly
      smaller one. */
  lemma OptimalChoiceReal(v: int)
    requires 1 <= v <= 13
    ensures forall d: Choice :: RealEv(v, d) <= RealEv(v, OptimalChoice(v))
    ensures forall d: Choice :: Rank(d) < Rank(OptimalChoice(v)) ==> RealEv(v, d) < RealEv(v, OptimalChoice(v))
  {
    var c := OptimalChoice(v);
    forall d: Choice
      ensures RealEv(v, d) <= RealEv(v, c)
      ensures Rank(d) < Rank(c) ==> RealEv(v, d) < RealEv(v, c)
    {
      ScaledOrder(v, d, c);
    }
  }

  /** The rule works out to Higher for values up to 7 and Lower above;
      Tie is never the best guess. */
  lemma OptimalByValue(v: int)
    requires 1 <= v <= 13
    ensures OptimalChoice(v) == if v <= 7 then Higher else Lower
    ensures OptimalChoice(v) != Tie
  {
    var e := ScaledEvs(v);
    var p := PayoutTable[v];
    assert e.higher == (4 * (13 - v) - 1) * p - (4 * (v - 1) + 2) * 2;
    assert e.lower == (4 * (v - 1) - 1) * p - (4 * (13 - v) + 2) * 2;
    assert e.tie == 24 - (4 * 12 - 2) * 2;
    if v <= 7 {
      assert e.higher >= e.lower && e.higher >= e.tie;
    } else {
      assert e.lower > e.higher && e.lower >= e.tie;
    }
  }

  /** On a 7 the Higher and Lower values are equal and the order decides
      for Higher. */
  lemma SevenIsATie()
    ensures ScaledEvs(7).higher == ScaledEvs(7).lower
    ensures ScaledEvs(7).higher > ScaledEvs(7).tie
    ensures OptimalChoice(7) == Higher
  {
    OptimalByValue(7);
  }

  /** One round of the optimal strategy in high.py: refill when fewer than
      two cards remain, look at the last card, choose for its value, and
      play the round from the refilled deck. */
  function OptimalRound(deck: seq<Name>, draws: seq<nat>): (res: (seq<Name>, RoundResult))
    requires |deck| < 2 ==> ShuffleDraws(draws, DeckSize)
    ensures var d := Refill(deck, 2, draws);
      && WellFormed(res.1)
      && res.1.firstCard == d[|d| - 1]
      && res.1.firstValue == Value(res.1.firstCard)
      && res.1.choice == OptimalChoice(Value(res.1.firstCard))
      && res.0 + [res.1.secondCard, res.1.firstCard] == d
  {
    var d := Refill(deck, 2, draws);
    var peeked := d[|d| - 1];
    var c := OptimalChoice(Value(peeked));
    DrawTwo(d, c)
  }

  /** The peeked card is the card the round draws first: the round finds
      two or more cards and does not refill a second time. */
  lemma PeekIsFirstDraw(deck: seq<Name>, draws: seq<nat>)
    requires |deck| < 2 ==> ShuffleDraws(draws, DeckSize)
    ensures var d := Refill(deck, 2, draws);
      && Refill(d, 2, draws) == d
      && OptimalRound(deck, draws) == PlayRound(d, OptimalChoice(Value(d[|d| - 1])), draws)
  {
  }
}

=== FILE: seqs.dfy ===
/** Small facts about sequences: prefixes and appends, used by the folds
    over round records; duplicate-free sequences; and the sums and
    elements of sequences that are permutations of each other. */
module Seqs {

  /** The prefix of length i+1 ends in s[i] and extends the prefix of
      length i. */
  lemma PrefixStep<T>(s: seq<T>, i: nat)
    requires i < |s|
    ensures s[..i + 1][..i] == s[..i] && s[..i + 1][i] == s[i]
  {
  }

  /** Taking the whole length gives back the sequence. */
  lemma TakeAll<T>(s: seq<T>)
    ensures s[..|s|] == s
  {
  }

  /** Dropping the element just appended gives back the sequence. */
  lemma DropAppended<T>(xs: seq<T>, x: T)
    ensures (xs + [x])[..|xs|] == xs && (xs + [x])[|xs|] == x
  {
  }

  /** A property of every element survives appending one more element
      that has it. */
  lemma AllSnoc<T>(xs: seq<T>, x: T, p: T -> bool)
    requires forall i :: 0 <= i < |xs| ==> p(xs[i])
    requires p(x)
    ensures forall i :: 0 <= i < |xs| + 1 ==> p((xs + [x])[i])
  {
    forall i | 0 <= i < |xs| + 1
      ensures p((xs + [x])[i])
    {
      if i < |xs| {
        assert (xs + [x])[i] == xs[i];
      }
    }
  }

  /** No element appears twice. */
  predicate Distinct<T(==)>(s: seq<T>)
  {
    forall i, j :: 0 <= i < j < |s| ==> s[i] != s[j]
  }

  /** An element of a duplicate-free sequence occurs there exactly once. */
  lemma {:induction false} DistinctCount<T>(s: seq<T>, x: T)
    requires Distinct(s)
    ensures multiset(s)[x] == if x in s then 1 else 0
  {
    if s != [] {
      assert s == [s[0]] + s[1..];
      assert multiset(s) == multiset{s[0]} + multiset(s[1..]);
      DistinctCount(s[1..], x);
    }
  }

  /** Exchanges positions i and j. */
  function Swap<T>(s: seq<T>, i: nat, j: nat): (r: seq<T>)
    requires i < |s| && j < |s|
    ensures |r| == |s| && multiset(r) == multiset(s)
    ensures r[i] == s[j] && r[j] == s[i]
    ensures forall k :: 0 <= k < |s| && k != i && k != j ==> r[k] == s[k]
  {
    s[i := s[j]][j := s[i]]
  }

  /** The sum of a list of numbers. */
  function SeqSum(s: seq<int>): int
  {
    if s == [] then 0 else s[0] + SeqSum(s[1..])
  }

  /** Sequences with the same elements are duplicate-free together. */
  lemma DistinctSameElements<T>(s: seq<T>, t: seq<T>)
    requires multiset(s) == multiset(t)
    ensures Distinct(s) <==> Distinct(t)
  {
    DistinctIffSingles(s);
    DistinctIffSingles(t);
  }

  /** A sequence is duplicate-free exactly when no element occurs twice in
      its multiset. */
  lemma DistinctIffSingles<T>(s: seq<T>)
    ensures Distinct(s) <==> forall x :: multiset(s)[x] <= 1
  {
    if Distinct(s) {
      forall x
        ensures multiset(s)[x] <= 1
      {
        DistinctCount(s, x);
      }
    } else {
      var i, j :| 0 <= i < j < |s| && s[i] == s[j];
      RepeatCount(s, i, j);
    }
  }

  /** An element at two positions occurs at least twice. */
  lemma RepeatCount<T>(s: seq<T>, i: nat, j: nat)
    requires i < j < |s| && s[i] == s[j]
    ensures multiset(s)[s[i]] >= 2
  {
    var front := s[..j];
    assert s == front + [s[j]] + s[j + 1..];
    assert front[i] == s[i];
    assert s[i] in multiset(front);
  }

  /** Sequences with the same elements have the same sum. */
  lemma {:induction false} SumPermutation(s: seq<int>, t: seq<int>)
    requires multiset(s) == multiset(t)
    ensures SeqSum(s) == SeqSum(t)
    decreases |s|
  {
    if s != [] {
      var i := PositionOf(t, s[0]);
      var rest := t[..i] + t[i + 1..];
      PermutationRest(s, t, i);
      SumPermutation(s[1..], rest);
      SumRemove(t, i);
    } else {
      assert |t| == |multiset(t)| == 0;
    }
  }

  /** An element of the multiset of t sits at some position of t. */
  lemma PositionOf(t: seq<int>, x: int) returns (i: nat)
    requires x in multiset(t)
    ensures i < |t| && t[i] == x
  {
    assert x in t;
    i :| 0 <= i < |t| && t[i] == x;
  }

  /** Taking the first element off s and the same element off t at
      position i leaves two sequences with the same elements. */
  lemma PermutationRest(s: seq<int>, t: seq<int>, i: nat)
    requires multiset(s) == multiset(t) && s != []
    requires i < |t| && t[i] == s[0]
    ensures multiset(s[1..]) == multiset(t[..i] + t[i + 1..])
  {
    MultisetRemove(s, 0);
    MultisetRemove(t, i);
    assert s[..0] + s[1..] == s[1..];
  }

  /** Removing the element at position i takes one copy of it out of the
      multiset. */
  lemma MultisetRemove<T>(t: seq<T>, i: nat)
    requires i < |t|
    ensures multiset(t[..i] + t[i + 1..]) == multiset(t) - multiset{t[i]}
  {
    assert t == t[..i] + [t[i]] + t[i + 1..];
  }

  /** Removing the element at position i takes it off the sum. */
  lemma {:induction false} SumRemove(t: seq<int>, i: nat)
    requires i < |t|
    ensures SeqSum(t) == t[i] + SeqSum(t[..i] + t[i + 1..])
  {
    if i > 0 {
      SumRemove(t[1..], i - 1);
      RemoveLater(t, i);
      SumCons(t[0], t[1..][..i - 1] + t[1..][i..]);
    } else {
      assert t[..0] + t[1..] == t[1..];
    }
  }

  /** Removing a later position keeps the first element in front. */
  lemma RemoveLater(t: seq<int>, i: nat)
    requires 0 < i < |t|
    ensures t[..i] + t[i + 1..] == [t[0]] + (t[1..][..i - 1] + t[1..][i..])
  {
    assert t[..i] == [t[0]] + t[1..][..i - 1];
    assert t[i + 1..] == t[1..][i..];
  }

  lemma SumCons(x: int, rest: seq<int>)
    ensures SeqSum([x] + rest) == x + SeqSum(rest)
  {
    assert ([x] + rest)[1..] == rest;
  }
}

=== FILE: session.dfy ===
/** The interactive game of playHigh.py: a game object holding a deck, the
    history of played rounds and a running balance. The player draws the
    first card in the main loop; play_round draws the second card and
    settles the round by the same rules as high.py. */
module Session {
  import opened Wrappers
  import opened Cards
  import opened HighLow
  import opened Seqs

  /** One entry of the game history: the settled round together with its
      number, what it cost and the balance right after it. */
  datatype Entry = Entry(round: nat, result: RoundResult, cost: int, balanceAfter: int)

  /** The state of a HighLowChallengePlus object. */
  datatype Game = Game(deck: seq<Name>, history: seq<Entry>, balance: int, roundNumber: nat)

  /** The settled rounds of a history, in order. */
  function Results(h: seq<Entry>): (rs: seq<RoundResult>)
    ensures |rs| == |h|
    ensures forall i :: 0 <= i < |h| ==> rs[i] == h[i].result
  {
    seq(|h|, i requires 0 <= i < |h| => h[i].result)
  }

  /** Entry i of a history is numbered i+1, costs the fixed price, is a
      settled round, and carries the sum of the net results up to and
      including it. */
  predicate EntryAt(h: seq<Entry>, i: nat)
    requires i < |h|
  {
    && h[i].round == i + 1
    && h[i].cost == CostToPlay
    && WellFormed(h[i].result)
    && h[i].balanceAfter == SumNet(Results(h[..i + 1]))
  }

  /** The class invariant: one history entry per round played, and the
      balance is the sum of the history's net results. */
  predicate Valid(g: Game)
  {
    && |g.deck| <= DeckSize
    && g.roundNumber == |g.history|
    && g.balance == SumNet(Results(g.history))
    && forall i :: 0 <= i < |g.history| ==> EntryAt(g.history, i)
  }

  /** __init__: a fresh shuffled deck, no history, a zero balance and no
      rounds played. */
  function Init(draws: seq<nat>): (g: Game)
    requires ShuffleDraws(draws, DeckSize)
    ensures FullDeck(g.deck)
    ensures g.history == [] && g.balance == 0 && g.roundNumber == 0
    ensures Valid(g)
  {
    Game(CreateDeck(draws), [], 0, 0)
  }

  /** play_round: count the round, replace the deck if it is empty, pop the
      second card from its end, settle, and append the entry to the
      history. The model takes the first value to be a table key: the main
      loop only passes the value of the card it drew. */
  function PlayRound(g: Game, c: Choice, firstCard: Name, firstValue: int, draws: seq<nat>): (res: (Game, Entry))
    requires firstValue in PayoutTable
    requires |g.deck| < 1 ==> ShuffleDraws(draws, DeckSize)
    ensures var (g', e) := res;
      && g'.roundNumber == g.roundNumber + 1
      && g'.history == g.history + [e]
      && WellFormed(e.result)
      && e.result.firstCard == firstCard && e.result.firstValue == firstValue
      && e.result.choice == c
      && (|g.deck| >= 1 ==> g'.deck == g.deck[..|g.deck| - 1]
                            && e.result.secondCard == g.deck[|g.deck| - 1])
      && (|g.deck| < 1 ==> |g'.deck| == DeckSize - 1
                           && FullDeck(g'.deck + [e.result.secondCard]))
      && e.balanceAfter == g'.balance == g.balance + e.result.netResult
  {
    var n := g.roundNumber + 1;
    var d := Refill(g.deck, 1, draws);
    var second := d[|d| - 1];
    assert d[..|d| - 1] + [second] == d;
    var r := Settle(c, firstCard, firstValue, second);
    var balance := g.balance + r.netResult;
    var e := Entry(n, r, CostToPlay, balance);
    (Game(d[..|d| - 1], g.history + [e], balance, n), e)
  }

  /** The settled rounds of a history with one more entry. */
  lemma ResultsSnoc(h: seq<Entry>, e: Entry)
    ensures Results(h + [e]) == Results(h) + [e.result]
  {
  }

  /** The net sum of a history with one more entry. */
  lemma SumNetSnoc(h: seq<Entry>, e: Entry)
    ensures SumNet(Results(h + [e])) == SumNet(Results(h)) + e.result.netResult
  {
    ResultsSnoc(h, e);
    DropAppended(Results(h), e.result);
  }

  /** Appending to a history leaves its earlier entries as they were. */
  lemma EntryAtSnoc(h: seq<Entry>, e: Entry, i: nat)
    requires i < |h| && EntryAt(h, i)
    ensures EntryAt(h + [e], i)
  {
    assert (h + [e])[i] == h[i];
    assert (h + [e])[..i + 1] == h[..i + 1];
  }

  /** play_round keeps the class invariant. */
  lemma PlayRoundValid(g: Game, c: Choice, firstCard: Name, firstValue: int, draws: seq<nat>)
    requires Valid(g)
    requires firstValue in PayoutTable
    requires |g.deck| < 1 ==> ShuffleDraws(draws, DeckSize)
    ensures Valid(PlayRound(g, c, firstCard, firstValue, draws).0)
  {
    var (g', e) := PlayRound(g, c, firstCard, firstValue, draws);
    var h := g.history;
    SumNetSnoc(h, e);
    forall i | 0 <= i < |h| + 1
      ensures EntryAt(h + [e], i)
    {
      if i < |h| {
        EntryAtSnoc(h, e, i);
      } else {
        assert (h + [e])[..i + 1] == h + [e];
      }
    }
  }

  /** One pass of the main loop: refill when fewer than two cards remain,
      pop the first card, and play the round with the player's guess. */
  function MainStep(g: Game, c: Choice, draws: seq<nat>): (res: (Game, Entry))
    requires |g.deck| < 2 ==> ShuffleDraws(draws, DeckSize)
    ensures res.0.roundNumber == g.roundNumber + 1
    ensures res.0.history == g.history + [res.1]
  {
    var d := Refill(g.deck, 2, draws);
    var first := d[|d| - 1];
    PayoutTableDomain();
    PlayRound(g.(deck := d[..|d| - 1]), c, first, Value(first), draws)
  }

  /** Because the main loop refills below two cards, play_round always
      finds a card and never refills: the step pops the last two cards of
      the refilled deck, and plays exactly the round high.py's play_round
      plays from the same deck. */
  lemma MainStepDrawsTwo(g: Game, c: Choice, draws: seq<nat>)
    requires |g.deck| < 2 ==> ShuffleDraws(draws, DeckSize)
    ensures var d := Refill(g.deck, 2, draws);
      var (g', e) := MainStep(g, c, draws);
      && g'.deck == d[..|d| - 2]
      && e.result.firstCard == d[|d| - 1]
      && e.result.secondCard == d[|d| - 2]
      && (g'.deck, e.result) == HighLow.PlayRound(g.deck, c, draws)
  {
    var d := Refill(g.deck, 2, draws);
    var d1 := d[..|d| - 1];
    assert d1[..|d1| - 1] == d[..|d| - 2];
    assert d1[|d1| - 1] == d[|d| - 2];
    PayoutTableDomain();
  }

  /** The main loop keeps the class invariant. */
  lemma MainStepValid(g: Game, c: Choice, draws: seq<nat>)
    requires Valid(g)
    requires |g.deck| < 2 ==> ShuffleDraws(draws, DeckSize)
    ensures Valid(MainStep(g, c, draws).0)
  {
    var d := Refill(g.deck, 2, draws);
    var first := d[|d| - 1];
    PayoutTableDomain();
    PlayRoundValid(g.(deck := d[..|d| - 1]), c, first, Value(first), draws);
  }

  /** What the player does in one pass of the main loop: the guess, and
      the shuffle draws used if the deck must be refilled. */
  datatype Move = Move(choice: Choice, draws: seq<nat>)

  predicate ValidMoves(ms: seq<Move>)
  {
    forall i :: 0 <= i < |ms| ==> ShuffleDraws(ms[i].draws, DeckSize)
  }

  /** The game after a sequence of passes of the main loop. */
  function PlayMoves(g: Game, ms: seq<Move>): (g': Game)
    requires ValidMoves(ms)
    ensures g'.roundNumber == g.roundNumber + |ms|
    ensures |g'.history| == |g.history| + |ms| && g'.history[..|g.history|] == g.history
    decreases |ms|
  {
    if ms == [] then g
    else
      var last := ms[|ms| - 1];
      MainStep(PlayMoves(g, ms[..|ms| - 1]), last.choice, last.draws).0
  }

  /** Any number of passes keeps the invariant, counts every pass as a
      round, and only ever appends to the history. */
  lemma {:induction false} PlayMovesValid(g: Game, ms: seq<Move>)
    requires Valid(g) && ValidMoves(ms)
    ensures var g' := PlayMoves(g, ms);
      && Valid(g')
      && g'.roundNumber == g.roundNumber + |ms|
      && |g'.history| == |g.history| + |ms|
      && g'.history[..|g.history|] == g.history
  {
    if ms != [] {
      var prefix := ms[..|ms| - 1];
      var last := ms[|ms| - 1];
      assert ValidMoves(prefix) by {
        assert forall i :: 0 <= i < |prefix| ==> prefix[i] == ms[i];
      }
      PlayMovesValid(g, prefix);
      var mid := PlayMoves(g, prefix);
      MainStepValid(mid, last.choice, last.draws);
    }
  }

  /** The integer part of the saved results. */
  datatype Summary = Summary(
    totalRounds: nat,
    wins: nat,
    losses: int,
    totalPayout: int,
    totalCost: int,
    finalBalance: int)

  /** The sum of the rounds' payouts. */
  function SumPayout(rs: seq<RoundResult>): int
  {
    if rs == [] then 0 else SumPayout(rs[..|rs| - 1]) + rs[|rs| - 1].payout
  }

  /** save_results: nothing for an empty history; otherwise the counts and
      sums of the history, the cost of every round and the balance. */
  function Summarize(g: Game): (s: Option<Summary>)
    ensures s == None <==> g.history == []
    ensures s.Some? ==> && s.value.totalRounds == |g.history|
                        && s.value.wins == CountWins(Results(g.history))
                        && s.value.totalPayout == SumPayout(Results(g.history))
                        && s.value.finalBalance == g.balance
  {
    if g.history == [] then None
    else
      var rs := Results(g.history);
      var wins := CountWins(rs);
      Some(Summary(|rs|, wins, |rs| - wins, SumPayout(rs), |rs| * CostToPlay, g.balance))
  }

  /** Every round loses its cost, so the net results add up to the payouts
      less the cost of all rounds. */
  lemma {:induction false} NetIsPayoutLessCost(rs: seq<RoundResult>)
    requires forall i :: 0 <= i < |rs| ==> WellFormed(rs[i])
    ensures SumNet(rs) == SumPayout(rs) - |rs| * CostToPlay
  {
    if rs != [] {
      var prefix := rs[..|rs| - 1];
      assert forall i :: 0 <= i < |prefix| ==> prefix[i] == rs[i];
      NetIsPayoutLessCost(prefix);
      assert WellFormed(rs[|rs| - 1]);
    }
  }

  /** For a valid game the summary balances: wins and losses partition the
      rounds (also as the main loop counts them, from the round number),
      the cost is two per round, and the final balance is what was paid
      out less what was paid in. */
  lemma SummaryBalances(g: Game)
    requires Valid(g)
    ensures Summarize(g).Some? <==> g.roundNumber > 0
    ensures Summarize(g).Some? ==>
      var s := Summarize(g).value;
      && s.totalRounds == g.roundNumber
      && s.wins + s.losses == s.totalRounds
      && s.losses == g.roundNumber - s.wins
      && s.totalCost == 2 * s.totalRounds
      && s.finalBalance == s.totalPayout - s.totalCost
      && s.wins == CountWins(Results(g.history))
      && s.totalPayout == SumPayout(Results(g.history))
    ensures g.balance == SumPayout(Results(g.history)) - CostToPlay * g.roundNumber
  {
    var rs := Results(g.history);
    assert forall i :: 0 <= i < |rs| ==> EntryAt(g.history, i) && rs[i] == g.history[i].result;
    NetIsPayoutLessCost(rs);
  }

  /** A whole session from a fresh game (Init gives one): after k passes
      the summary reports k rounds and a balance of payouts less 2k. */
  lemma SessionSummary(g0: Game, ms: seq<Move>)
    requires Valid(g0) && g0.roundNumber == 0 && ValidMoves(ms)
    requires ms != []
    ensures Summarize(PlayMoves(g0, ms)).Some?
    ensures Summarize(PlayMoves(g0, ms)).value.totalRounds == |ms|
    ensures var g := PlayMoves(g0, ms);
      var s := Summarize(g).value;
      && s.wins == CountWins(Results(g.history))
      && s.totalPayout == SumPayout(Results(g.history))
      && s.finalBalance == s.totalPayout - 2 * |ms|
  {
    var g := PlayMoves(g0, ms);
    PlayMovesValid(g0, ms);
    SummaryBalances(g);
  }
}

=== FILE: simulation.dfy ===
/** The two batch simulations of high.py: the random strategy and the
    expected-value strategy, each folding N round records into win, loss
    and net totals with breakdowns by first card and by guess. */
module Simulation {
  import opened Wrappers
  import opened Cards
  import opened HighLow
  import opened Optimal
  import opened Tallies
  import opened Seqs

  /** The first cards seen in the rounds. */
  function FirstCards(rs: seq<RoundResult>): set<Name>
  {
    set i | 0 <= i < |rs| :: rs[i].firstCard
  }

  /** The rounds whose first card is n, in play order. */
  function RoundsOn(rs: seq<RoundResult>, n: Name): seq<RoundResult>
  {
    if rs == [] then []
    else RoundsOn(rs[..|rs| - 1], n) + (if rs[|rs| - 1].firstCard == n then [rs[|rs| - 1]] else [])
  }

  /** The rounds that made guess c, in play order. */
  function RoundsGuessing(rs: seq<RoundResult>, c: Choice): seq<RoundResult>
  {
    if rs == [] then []
    else RoundsGuessing(rs[..|rs| - 1], c) + (if rs[|rs| - 1].choice == c then [rs[|rs| - 1]] else [])
  }

  /** The wins, losses and net of a list of rounds, counted from the
      rounds themselves. */
  function TallyOf(rs: seq<RoundResult>): Tally
  {
    Tally(CountWins(rs), |rs| - CountWins(rs), SumNet(rs))
  }

  /** The running totals of a simulation loop. `lastChoice` records the
      guess most recently made on each first card; the optimal strategy
      reports it. */
  datatype Stats = Stats(
    playerWins: nat,
    playerLosses: nat,
    totalNet: int,
    byFirstCard: map<Name, Tally>,
    lastChoice: map<Name, Choice>,
    byChoice: map<Choice, Tally>)

  /** The totals before the first round: the guess breakdown starts with
      an empty tally for each guess, the first-card breakdown empty. */
  function Start(): Stats
  {
    Stats(0, 0, 0, map[], map[], map[Higher := Zero(), Lower := Zero(), Tie := Zero()])
  }

  /** Adds one round to the totals, as the body of the simulation loop
      does: the round's tally goes to its first card and to its guess, the
      card remembers the guess, and every other entry stays as it was. */
  function Record(st: Stats, r: RoundResult): (st': Stats)
    ensures st'.playerWins == st.playerWins + (if r.win then 1 else 0)
    ensures st'.playerWins + st'.playerLosses == st.playerWins + st.playerLosses + 1
    ensures st'.totalNet == st.totalNet + r.netResult
    ensures st'.byFirstCard.Keys == st.byFirstCard.Keys + {r.firstCard}
    ensures Get(st'.byFirstCard, r.firstCard).Plays() == Get(st.byFirstCard, r.firstCard).Plays() + 1
    ensures Get(st'.byFirstCard, r.firstCard) == Plus(Get(st.byFirstCard, r.firstCard), OfRound(r.win, r.netResult))
    ensures forall n :: n in st.byFirstCard && n != r.firstCard ==> st'.byFirstCard[n] == st.byFirstCard[n]
    ensures st'.byChoice.Keys == st.byChoice.Keys + {r.choice}
    ensures Get(st'.byChoice, r.choice).Plays() == Get(st.byChoice, r.choice).Plays() + 1
    ensures Get(st'.byChoice, r.choice) == Plus(Get(st.byChoice, r.choice), OfRound(r.win, r.netResult))
    ensures forall c :: c in st.byChoice && c != r.choice ==> st'.byChoice[c] == st.byChoice[c]
    ensures st'.lastChoice.Keys == st.lastChoice.Keys + {r.firstCard}
    ensures st'.lastChoice[r.firstCard] == r.choice
  {
    var t := OfRound(r.win, r.netResult);
    var cards := Bump(st.byFirstCard, r.firstCard, t);
    var guesses := Bump(st.byChoice, r.choice, t);
    Stats(
      st.playerWins + (if r.win then 1 else 0),
      st.playerLosses + (if r.win then 0 else 1),
      st.totalNet + r.netResult,
      cards,
      st.lastChoice[r.firstCard := r.choice],
      guesses)
  }

  /** The totals after recording the rounds in order. */
  function Aggregate(rs: seq<RoundResult>): Stats
  {
    if rs == [] then Start() else Record(Aggregate(rs[..|rs| - 1]), rs[|rs| - 1])
  }

  /** What the totals of a list of rounds must be, stated against the
      rounds themselves rather than the loop that computes them. */
  predicate Accounts(st: Stats, rs: seq<RoundResult>)
  {
    && st.playerWins == CountWins(rs)
    && st.playerWins + st.playerLosses == |rs|
    && st.totalNet == SumNet(rs)
    && st.byFirstCard.Keys == FirstCards(rs)
    && st.lastChoice.Keys == FirstCards(rs)
    && (forall n :: n in st.byFirstCard ==> st.byFirstCard[n].Plays() > 0)
    && SumOver(CardNames, st.byFirstCard) == Tally(st.playerWins, st.playerLosses, st.totalNet)
    && (forall c: Choice :: c in st.byChoice)
    && SumOver(ChoiceOrder, st.byChoice) == Tally(st.playerWins, st.playerLosses, st.totalNet)
    && (forall n :: Get(st.byFirstCard, n) == TallyOf(RoundsOn(rs, n)))
    && (forall c :: Get(st.byChoice, c) == TallyOf(RoundsGuessing(rs, c)))
  }

  /** Each round's guess is what the rule gives for its first card. */
  predicate ChoseBy(rs: seq<RoundResult>, policy: Name -> Choice)
  {
    forall i :: 0 <= i < |rs| ==> rs[i].choice == policy(rs[i].firstCard)
  }

  /** The optimal strategy's guess for a first card. */
  function OptimalFor(n: Name): Choice
  {
    OptimalChoice(Value(n))
  }

  /** The first cards of a non-empty list of rounds are those of all but
      the last round, plus the last round's. */
  lemma FirstCardsLast(rs: seq<RoundResult>)
    requires rs != []
    ensures FirstCards(rs) == FirstCards(rs[..|rs| - 1]) + {rs[|rs| - 1].firstCard}
  {
    var prev := rs[..|rs| - 1];
    forall n | n in FirstCards(rs)
      ensures n in FirstCards(prev) + {rs[|rs| - 1].firstCard}
    {
      var i :| 0 <= i < |rs| && rs[i].firstCard == n;
      if i < |prev| {
        assert prev[i] == rs[i];
        assert n in FirstCards(prev);
      }
    }
    forall n | n in FirstCards(prev) + {rs[|rs| - 1].firstCard}
      ensures n in FirstCards(rs)
    {
      if n != rs[|rs| - 1].firstCard {
        var i :| 0 <= i < |prev| && prev[i].firstCard == n;
        assert rs[i].firstCard == n;
      }
    }
  }

  /** The fold counts the wins, splits the rounds into wins and losses,
      and adds up the nets. */
  lemma {:induction false} AggregateTotals(rs: seq<RoundResult>)
    ensures Aggregate(rs).playerWins == CountWins(rs)
    ensures Aggregate(rs).playerWins + Aggregate(rs).playerLosses == |rs|
    ensures Aggregate(rs).totalNet == SumNet(rs)
  {
    if rs != [] {
      AggregateTotals(rs[..|rs| - 1]);
    }
  }

  /** A first-card entry exists exactly for the cards seen, and each
      entry counts at least one play. */
  lemma {:induction false} AggregateCardKeys(rs: seq<RoundResult>)
    ensures Aggregate(rs).byFirstCard.Keys == FirstCards(rs)
    ensures forall n :: n in Aggregate(rs).byFirstCard ==> Aggregate(rs).byFirstCard[n].Plays() > 0
  {
    if rs == [] {
      assert FirstCards(rs) == {};
    } else {
      var prev := rs[..|rs| - 1];
      AggregateCardKeys(prev);
      FirstCardsLast(rs);
      assert Aggregate(rs) == Record(Aggregate(prev), rs[|rs| - 1]);
    }
  }

  /** A guess is remembered exactly for the cards seen. */
  lemma {:induction false} AggregateChoiceKeys(rs: seq<RoundResult>)
    ensures Aggregate(rs).lastChoice.Keys == FirstCards(rs)
  {
    if rs == [] {
      assert FirstCards(rs) == {};
    } else {
      var prev := rs[..|rs| - 1];
      AggregateChoiceKeys(prev);
      FirstCardsLast(rs);
      assert Aggregate(rs) == Record(Aggregate(prev), rs[|rs| - 1]);
    }
  }

  /** The guess breakdown always holds all three guesses. */
  lemma {:induction false} AggregateGuessKeys(rs: seq<RoundResult>)
    ensures forall c: Choice :: c in Aggregate(rs).byChoice
  {
    if rs == [] {
      forall c: Choice
        ensures c in Start().byChoice
      {
        assert c == Higher || c == Lower || c == Tie;
      }
    } else {
      var prev := rs[..|rs| - 1];
      AggregateGuessKeys(prev);
      assert Aggregate(rs) == Record(Aggregate(prev), rs[|rs| - 1]);
    }
  }

  /** No guess appears twice in ChoiceOrder. */
  lemma ChoiceOrderDistinct()
    ensures Distinct(ChoiceOrder)
  {
    forall i, j | 0 <= i < j < |ChoiceOrder|
      ensures ChoiceOrder[i] != ChoiceOrder[j]
    {
      assert Rank(ChoiceOrder[i]) == i && Rank(ChoiceOrder[j]) == j;
    }
  }

  /** The sum over ChoiceOrder adds the Higher, Lower and Tie entries. */
  lemma ChoiceSum(m: map<Choice, Tally>)
    ensures SumOver(ChoiceOrder, m) == Plus(Get(m, Higher), Plus(Get(m, Lower), Plus(Get(m, Tie), Zero())))
  {
    SumOverThree(Higher, Lower, Tie, m);
  }

  /** Recording a round adds its tally to the overall totals. */
  lemma RecordTotals(st: Stats, r: RoundResult)
    ensures var st' := Record(st, r);
      Tally(st'.playerWins, st'.playerLosses, st'.totalNet)
        == Plus(Tally(st.playerWins, st.playerLosses, st.totalNet), OfRound(r.win, r.netResult))
  {
  }

  /** The first-card breakdown partitions the rounds: summed over all card
      names, its tallies give the overall wins, losses and net. */
  lemma {:induction false} AggregateCardSum(rs: seq<RoundResult>)
    ensures var st := Aggregate(rs);
      SumOver(CardNames, st.byFirstCard) == Tally(st.playerWins, st.playerLosses, st.totalNet)
  {
    if rs == [] {
      SumOverMissing(CardNames, map[]);
    } else {
      var r := rs[|rs| - 1];
      var st := Aggregate(rs[..|rs| - 1]);
      var t := OfRound(r.win, r.netResult);
      AggregateCardSum(rs[..|rs| - 1]);
      assert Aggregate(rs) == Record(st, r);
      CardNamesDistinct();
      SumOverBumpOnce(CardNames, st.byFirstCard, r.firstCard, t);
      RecordTotals(st, r);
    }
  }

  /** The guess breakdown partitions the rounds in the same way. */
  lemma {:induction false} AggregateChoiceSum(rs: seq<RoundResult>)
    ensures var st := Aggregate(rs);
      SumOver(ChoiceOrder, st.byChoice) == Tally(st.playerWins, st.playerLosses, st.totalNet)
  {
    if rs == [] {
      var m := Start().byChoice;
      assert Get(m, Higher) == Zero() && Get(m, Lower) == Zero() && Get(m, Tie) == Zero();
      assert Plus(Zero(), Zero()) == Zero();
      ChoiceSum(m);
    } else {
      var r := rs[|rs| - 1];
      var st := Aggregate(rs[..|rs| - 1]);
      var t := OfRound(r.win, r.netResult);
      AggregateChoiceSum(rs[..|rs| - 1]);
      assert Aggregate(rs) == Record(st, r);
      ChoiceOrderDistinct();
      assert ChoiceOrder[Rank(r.choice)] == r.choice;
      SumOverBumpOnce(ChoiceOrder, st.byChoice, r.choice, t);
      RecordTotals(st, r);
    }
  }

  /** One more round adds its own tally to the tally of a list of rounds. */
  lemma TallyOfSnoc(rs: seq<RoundResult>, r: RoundResult)
    ensures TallyOf(rs + [r]) == Plus(TallyOf(rs), OfRound(r.win, r.netResult))
  {
    assert (rs + [r])[..|rs|] == rs;
  }

  /** The tally under card n in the first-card breakdown is that of the
      rounds whose first card is n; a card never seen reads as empty. */
  lemma {:induction false} AggregateCardTallies(rs: seq<RoundResult>)
    ensures forall n :: Get(Aggregate(rs).byFirstCard, n) == TallyOf(RoundsOn(rs, n))
  {
    if rs != [] {
      var prev := rs[..|rs| - 1];
      var r := rs[|rs| - 1];
      AggregateCardTallies(prev);
      assert Aggregate(rs) == Record(Aggregate(prev), r);
      forall n
        ensures Get(Aggregate(rs).byFirstCard, n) == TallyOf(RoundsOn(rs, n))
      {
        GetBump(Aggregate(prev).byFirstCard, r.firstCard, OfRound(r.win, r.netResult), n);
        if n == r.firstCard {
          assert RoundsOn(rs, n) == RoundsOn(prev, n) + [r];
          TallyOfSnoc(RoundsOn(prev, n), r);
          assert Get(Aggregate(rs).byFirstCard, n) == TallyOf(RoundsOn(rs, n));
        } else {
          assert RoundsOn(rs, n) == RoundsOn(prev, n);
          assert Get(Aggregate(rs).byFirstCard, n) == TallyOf(RoundsOn(rs, n));
        }
      }
    }
  }

  /** The tally under guess c in the guess breakdown is that of the rounds
      that guessed c. */
  lemma {:induction false} AggregateChoiceTallies(rs: seq<RoundResult>)
    ensures forall c :: Get(Aggregate(rs).byChoice, c) == TallyOf(RoundsGuessing(rs, c))
  {
    if rs == [] {
      forall c: Choice
        ensures Get(Start().byChoice, c) == Zero()
      {
        assert c == Higher || c == Lower || c == Tie;
      }
    } else {
      var prev := rs[..|rs| - 1];
      var r := rs[|rs| - 1];
      AggregateChoiceTallies(prev);
      assert Aggregate(rs) == Record(Aggregate(prev), r);
      forall c
        ensures Get(Aggregate(rs).byChoice, c) == TallyOf(RoundsGuessing(rs, c))
      {
        GetBump(Aggregate(prev).byChoice, r.choice, OfRound(r.win, r.netResult), c);
        if c == r.choice {
          assert RoundsGuessing(rs, c) == RoundsGuessing(prev, c) + [r];
          TallyOfSnoc(RoundsGuessing(prev, c), r);
          assert Get(Aggregate(rs).byChoice, c) == TallyOf(RoundsGuessing(rs, c));
        } else {
          assert RoundsGuessing(rs, c) == RoundsGuessing(prev, c);
          assert Get(Aggregate(rs).byChoice, c) == TallyOf(RoundsGuessing(rs, c));
        }
      }
    }
  }

  /** When every round chose by a rule that depends only on the first
      card, the guess remembered for each card is the one the rule gives. */
  lemma {:induction false} AggregateLastChoice(rs: seq<RoundResult>, policy: Name -> Choice)
    requires ChoseBy(rs, policy)
    ensures forall n :: n in Aggregate(rs).lastChoice ==> Aggregate(rs).lastChoice[n] == policy(n)
  {
    if rs != [] {
      var prev := rs[..|rs| - 1];
      assert forall i :: 0 <= i < |prev| ==> prev[i] == rs[i];
      AggregateLastChoice(prev, policy);
      assert rs[|rs| - 1].choice == policy(rs[|rs| - 1].firstCard);
    }
  }

  /** The fold keeps the totals in step with the rounds. */
  lemma AggregateAccounts(rs: seq<RoundResult>)
    ensures Accounts(Aggregate(rs), rs)
  {
    AggregateTotals(rs);
    AggregateCardKeys(rs);
    AggregateChoiceKeys(rs);
    AggregateGuessKeys(rs);
    AggregateCardSum(rs);
    AggregateChoiceSum(rs);
    AggregateCardTallies(rs);
    AggregateChoiceTallies(rs);
  }

  /** The inputs of one round of the random strategy: the guess drawn, and
      the shuffle draws used if the round has to refill the deck. */
  datatype RoundInput = RoundInput(choice: Choice, draws: seq<nat>)

  predicate ValidInputs(inputs: seq<RoundInput>)
  {
    forall i :: 0 <= i < |inputs| ==> ShuffleDraws(inputs[i].draws, DeckSize)
  }

  /** The rounds of the random strategy from an empty deck (the game starts
      with no cards, so the first round refills): the deck left behind and
      the round records. */
  function RunRandom(inputs: seq<RoundInput>): (res: (seq<Name>, seq<RoundResult>))
    requires ValidInputs(inputs)
    ensures |res.1| == |inputs|
  {
    if inputs == [] then ([], [])
    else
      var (deck, rs) := RunRandom(inputs[..|inputs| - 1]);
      var last := inputs[|inputs| - 1];
      var (deck', r) := PlayRound(deck, last.choice, last.draws);
      (deck', rs + [r])
  }

  /** One more input plays one more round from the deck the earlier
      rounds left. */
  lemma RunRandomStep(inputs: seq<RoundInput>, i: nat)
    requires ValidInputs(inputs) && i < |inputs|
    ensures ValidInputs(inputs[..i]) && ValidInputs(inputs[..i + 1])
    ensures var (deck, rs) := RunRandom(inputs[..i]);
      var (deck', r) := PlayRound(deck, inputs[i].choice, inputs[i].draws);
      RunRandom(inputs[..i + 1]) == (deck', rs + [r])
  {
    PrefixStep(inputs, i);
  }

  /** One more input moves the deck on by one round and folds that round
      into the totals. */
  lemma PlayRandomStep(inputs: seq<RoundInput>, i: nat)
    requires ValidInputs(inputs) && i < |inputs|
    ensures ValidInputs(inputs[..i]) && ValidInputs(inputs[..i + 1])
    ensures var played := PlayRound(RunRandom(inputs[..i]).0, inputs[i].choice, inputs[i].draws);
      && RunRandom(inputs[..i + 1]).0 == played.0
      && Aggregate(RunRandom(inputs[..i + 1]).1) == Record(Aggregate(RunRandom(inputs[..i]).1), played.1)
  {
    RunRandomStep(inputs, i);
    var rs := RunRandom(inputs[..i]).1;
    var played := PlayRound(RunRandom(inputs[..i]).0, inputs[i].choice, inputs[i].draws);
    DropAppended(rs, played.1);
  }

  /** The rounds of a non-empty input list are those of all but the last
      input, followed by the last input's round. */
  lemma RunRandomLast(inputs: seq<RoundInput>)
    requires ValidInputs(inputs) && inputs != []
    ensures ValidInputs(inputs[..|inputs| - 1])
    ensures var prefix := inputs[..|inputs| - 1];
      var last := inputs[|inputs| - 1];
      RunRandom(inputs).1
        == RunRandom(prefix).1 + [PlayRound(RunRandom(prefix).0, last.choice, last.draws).1]
  {
  }

  /** Every round of the random strategy is settled by the game's rules. */
  lemma {:induction false} RunRandomRounds(inputs: seq<RoundInput>)
    requires ValidInputs(inputs)
    ensures forall i :: 0 <= i < |inputs| ==> WellFormed(RunRandom(inputs).1[i])
  {
    if inputs != [] {
      var prefix := inputs[..|inputs| - 1];
      var last := inputs[|inputs| - 1];
      RunRandomLast(inputs);
      RunRandomRounds(prefix);
      var r := PlayRound(RunRandom(prefix).0, last.choice, last.draws).1;
      AllSnoc(RunRandom(prefix).1, r, WellFormed);
    }
  }

  /** Every round of the random strategy makes the guess it was given. */
  lemma {:induction false} RunRandomChoices(inputs: seq<RoundInput>)
    requires ValidInputs(inputs)
    ensures forall i :: 0 <= i < |inputs| ==> RunRandom(inputs).1[i].choice == inputs[i].choice
  {
    if inputs != [] {
      var prefix := inputs[..|inputs| - 1];
      var last := inputs[|inputs| - 1];
      RunRandomLast(inputs);
      RunRandomChoices(prefix);
      var r := PlayRound(RunRandom(prefix).0, last.choice, last.draws).1;
      ChoicesSnoc(RunRandom(prefix).1, r, inputs);
    }
  }

  /** Rounds that made the guesses of all but the last input, followed by
      a round that made the last guess, made every guess in order. */
  lemma ChoicesSnoc(rs: seq<RoundResult>, r: RoundResult, inputs: seq<RoundInput>)
    requires inputs != [] && |rs| == |inputs| - 1
    requires forall i :: 0 <= i < |rs| ==> rs[i].choice == inputs[..|inputs| - 1][i].choice
    requires r.choice == inputs[|inputs| - 1].choice
    ensures forall i :: 0 <= i < |inputs| ==> (rs + [r])[i].choice == inputs[i].choice
  {
    forall i | 0 <= i < |inputs|
      ensures (rs + [r])[i].choice == inputs[i].choice
    {
      if i < |rs| {
        assert (rs + [r])[i] == rs[i] && inputs[..|inputs| - 1][i] == inputs[i];
      }
    }
  }

  /** Every shuffle's draws fit a 52-card deck. */
  predicate ValidShuffles(shuffles: seq<seq<nat>>)
  {
    forall i :: 0 <= i < |shuffles| ==> ShuffleDraws(shuffles[i], DeckSize)
  }

  /** The rounds of the optimal strategy from an empty deck; each round
      takes the shuffle draws used if it has to refill. */
  function RunOptimal(shuffles: seq<seq<nat>>): (res: (seq<Name>, seq<RoundResult>))
    requires ValidShuffles(shuffles)
    ensures |res.1| == |shuffles|
  {
    if shuffles == [] then ([], [])
    else
      var (deck, rs) := RunOptimal(shuffles[..|shuffles| - 1]);
      var (deck', r) := OptimalRound(deck, shuffles[|shuffles| - 1]);
      (deck', rs + [r])
  }

  /** One more shuffle plays one more round from the deck the earlier
      rounds left. */
  lemma RunOptimalStep(shuffles: seq<seq<nat>>, i: nat)
    requires ValidShuffles(shuffles)
    requires i < |shuffles|
    ensures ValidShuffles(shuffles[..i]) && ValidShuffles(shuffles[..i + 1])
    ensures var (deck, rs) := RunOptimal(shuffles[..i]);
      var (deck', r) := OptimalRound(deck, shuffles[i]);
      RunOptimal(shuffles[..i + 1]) == (deck', rs + [r])
  {
    PrefixStep(shuffles, i);
  }

  /** One more shuffle moves the deck on by one round and folds that round
      into the totals. */
  lemma PlayOptimalStep(shuffles: seq<seq<nat>>, i: nat)
    requires ValidShuffles(shuffles)
    requires i < |shuffles|
    ensures ValidShuffles(shuffles[..i]) && ValidShuffles(shuffles[..i + 1])
    ensures var played := OptimalRound(RunOptimal(shuffles[..i]).0, shuffles[i]);
      && RunOptimal(shuffles[..i + 1]).0 == played.0
      && Aggregate(RunOptimal(shuffles[..i + 1]).1) == Record(Aggregate(RunOptimal(shuffles[..i]).1), played.1)
  {
    RunOptimalStep(shuffles, i);
    var rs := RunOptimal(shuffles[..i]).1;
    var played := OptimalRound(RunOptimal(shuffles[..i]).0, shuffles[i]);
    DropAppended(rs, played.1);
  }

  /** Every round of the optimal strategy is settled by the game's rules
      and makes the optimal guess for its first card. */
  lemma {:induction false} RunOptimalRounds(shuffles: seq<seq<nat>>)
    requires ValidShuffles(shuffles)
    ensures forall i :: 0 <= i < |shuffles| ==> WellFormed(RunOptimal(shuffles).1[i])
    ensures ChoseBy(RunOptimal(shuffles).1, OptimalFor)
  {
    if shuffles != [] {
      var prefix := shuffles[..|shuffles| - 1];
      assert forall i :: 0 <= i < |prefix| ==> prefix[i] == shuffles[i];
      RunOptimalRounds(prefix);
      var (deck, rs) := RunOptimal(prefix);
      var (deck', r) := OptimalRound(deck, shuffles[|shuffles| - 1]);
      assert RunOptimal(shuffles).1 == rs + [r];
      AllSnoc(rs, r, WellFormed);
      AllSnoc(rs, r, (x: RoundResult) => x.choice == OptimalFor(x.firstCard));
    }
  }

  /** One entry of the first-card breakdown. */
  datatype CardEntry = CardEntry(
    card: Name,
    payoutForHigherLower: int,
    optimalChoice: Option<Choice>,
    totalPlays: nat,
    wins: nat,
    losses: nat,
    netResult: int)

  /** The report of a simulation, without the float-valued rates. */
  datatype Report = Report(
    totalSimulations: nat,
    playerWins: nat,
    houseWins: int,
    totalNet: int,
    byFirstCard: seq<CardEntry>,
    byChoice: map<Choice, Tally>)

  function SumPlays(es: seq<CardEntry>): int
  {
    if es == [] then 0 else es[0].totalPlays + SumPlays(es[1..])
  }

  function SumEntryNet(es: seq<CardEntry>): int
  {
    if es == [] then 0 else es[0].netResult + SumEntryNet(es[1..])
  }

  /** An entry's plays, wins, losses and net are those of tally t. */
  predicate EntryReports(e: CardEntry, t: Tally)
  {
    && e.totalPlays == t.Plays()
    && e.wins == t.wins
    && e.losses == t.losses
    && e.netResult == t.net
  }

  /** An entry quotes the table payout for its card's value, as every
      first-card entry of the report does. */
  predicate EntryPays(e: CardEntry)
  {
    e.payoutForHigherLower == PayoutTable[Value(e.card)]
  }

  /** The entries' cards strictly increase in value: they follow
      CardNames, each card at most once. */
  predicate ValueOrdered(es: seq<CardEntry>)
  {
    forall i, j :: 0 <= i < j < |es| ==> Value(es[i].card) < Value(es[j].card)
  }

  /** An entry reports the card's table payout and its tally, and, when
      asked for, the guess remembered for the card. */
  predicate EntryFor(e: CardEntry, st: Stats, withChoice: bool)
  {
    && e.card in st.byFirstCard
    && EntryReports(e, st.byFirstCard[e.card])
    && EntryPays(e)
    && e.optimalChoice == if withChoice && e.card in st.lastChoice then Some(st.lastChoice[e.card]) else None
  }

  /** The first-card breakdown: one entry per listed card that was seen, in
      list order. The optimal strategy also reports the choice it made on
      the card. */
  function Breakdown(names: seq<Name>, st: Stats, withChoice: bool): (es: seq<CardEntry>)
    ensures forall i :: 0 <= i < |es| ==> es[i].card in names && EntryFor(es[i], st, withChoice)
  {
    if names == [] then []
    else
      var rest := Breakdown(names[1..], st, withChoice);
      var n := names[0];
      if n in st.byFirstCard then
        var t := st.byFirstCard[n];
        PayoutTableDomain();
        var choice := if withChoice && n in st.lastChoice then Some(st.lastChoice[n]) else None;
        var e := CardEntry(n, GetPayout(Value(n)), choice, t.Plays(), t.wins, t.losses, t.net);
        assert forall i :: 1 <= i < |rest| + 1 ==> ([e] + rest)[i] == rest[i - 1];
        [e] + rest
      else
        rest
  }

  /** Some entry reports card n. */
  predicate HasEntry(es: seq<CardEntry>, n: Name)
  {
    exists i :: 0 <= i < |es| && es[i].card == n
  }

  /** Every listed card that was seen has an entry. */
  lemma {:induction false} BreakdownCovers(names: seq<Name>, st: Stats, withChoice: bool)
    ensures forall n :: n in names && n in st.byFirstCard ==> HasEntry(Breakdown(names, st, withChoice), n)
  {
    if names != [] {
      BreakdownCovers(names[1..], st, withChoice);
      var es := Breakdown(names, st, withChoice);
      var rest := Breakdown(names[1..], st, withChoice);
      var skip := if names[0] in st.byFirstCard then 1 else 0;
      assert es[skip..] == rest;
      forall n | n in names && n in st.byFirstCard
        ensures HasEntry(es, n)
      {
        if n == names[0] {
          assert es[0].card == n;
        } else {
          assert n in names[1..];
          var j :| 0 <= j < |rest| && rest[j].card == n;
          assert es[skip..][j] == es[j + skip];
        }
      }
    }
  }

  /** The entries' plays add up to the plays of the listed cards. */
  lemma {:induction false} BreakdownPlays(names: seq<Name>, st: Stats, withChoice: bool)
    ensures SumPlays(Breakdown(names, st, withChoice)) == SumOver(names, st.byFirstCard).Plays()
  {
    if names != [] {
      var es := Breakdown(names, st, withChoice);
      var rest := Breakdown(names[1..], st, withChoice);
      BreakdownPlays(names[1..], st, withChoice);
      assert SumOver(names, st.byFirstCard) == Plus(Get(st.byFirstCard, names[0]), SumOver(names[1..], st.byFirstCard));
      if names[0] in st.byFirstCard {
        assert es[1..] == rest;
        assert SumPlays(es) == es[0].totalPlays + SumPlays(rest);
      } else {
        assert es == rest;
        assert Get(st.byFirstCard, names[0]) == Zero();
      }
    }
  }

  /** The entries' nets add up to the net of the listed cards. */
  lemma {:induction false} BreakdownNet(names: seq<Name>, st: Stats, withChoice: bool)
    ensures SumEntryNet(Breakdown(names, st, withChoice)) == SumOver(names, st.byFirstCard).net
  {
    if names != [] {
      var es := Breakdown(names, st, withChoice);
      var rest := Breakdown(names[1..], st, withChoice);
      BreakdownNet(names[1..], st, withChoice);
      assert SumOver(names, st.byFirstCard) == Plus(Get(st.byFirstCard, names[0]), SumOver(names[1..], st.byFirstCard));
      if names[0] in st.byFirstCard {
        assert es[1..] == rest;
        assert SumEntryNet(es) == es[0].netResult + SumEntryNet(rest);
      } else {
        assert es == rest;
        assert Get(st.byFirstCard, names[0]) == Zero();
      }
    }
  }

  /** Builds the report from the final totals of N rounds. */
  function Summarize(st: Stats, n: nat, withChoice: bool): (rep: Report)
    ensures rep.totalSimulations == n
    ensures rep.playerWins == st.playerWins && rep.playerWins + rep.houseWins == n
    ensures rep.totalNet == st.totalNet && rep.byChoice == st.byChoice
    ensures forall i :: 0 <= i < |rep.byFirstCard| ==> EntryFor(rep.byFirstCard[i], st, withChoice)
  {
    Report(n, st.playerWins, n - st.playerWins, st.totalNet,
           Breakdown(CardNames, st, withChoice), st.byChoice)
  }

  /** The report's totals: N rounds, split into player and house wins,
      with the net of all rounds. */
  predicate ReportTotals(rep: Report, rs: seq<RoundResult>)
  {
    && rep.totalSimulations == |rs|
    && rep.playerWins == CountWins(rs)
    && rep.playerWins + rep.houseWins == |rs|
    && rep.totalNet == SumNet(rs)
  }

  /** The first-card breakdown: exactly one entry per card seen, in the
      order of CardNames, each reporting the tally of the rounds on its
      card; so every entry has a play and the entries partition the rounds
      and their net. */
  predicate ReportCards(rep: Report, rs: seq<RoundResult>)
  {
    && ValueOrdered(rep.byFirstCard)
    && (forall i :: 0 <= i < |rep.byFirstCard| ==>
          EntryReports(rep.byFirstCard[i], TallyOf(RoundsOn(rs, rep.byFirstCard[i].card))))
    && SumPlays(rep.byFirstCard) == |rs|
    && SumEntryNet(rep.byFirstCard) == SumNet(rs)
    && (forall i :: 0 <= i < |rep.byFirstCard| ==> rep.byFirstCard[i].totalPlays > 0)
    && (forall i :: 0 <= i < |rep.byFirstCard| ==> rep.byFirstCard[i].card in FirstCards(rs))
    && (forall n :: n in FirstCards(rs) ==> HasEntry(rep.byFirstCard, n))
    && (forall i :: 0 <= i < |rep.byFirstCard| ==> EntryPays(rep.byFirstCard[i]))
  }

  /** The guess breakdown holds, under each of the three guesses, the
      tally of the rounds that made it; so it partitions the rounds and
      their net. */
  predicate ReportGuesses(rep: Report, rs: seq<RoundResult>)
  {
    && (forall c: Choice :: c in rep.byChoice)
    && (forall c: Choice :: rep.byChoice[c] == TallyOf(RoundsGuessing(rs, c)))
    && rep.byChoice[Higher].Plays() + rep.byChoice[Lower].Plays() + rep.byChoice[Tie].Plays() == |rs|
    && rep.byChoice[Higher].net + rep.byChoice[Lower].net + rep.byChoice[Tie].net == SumNet(rs)
  }

  /** What both simulations promise about their report, given the rounds
      they played. */
  predicate ReportAccounts(rep: Report, rs: seq<RoundResult>)
  {
    ReportTotals(rep, rs) && ReportCards(rep, rs) && ReportGuesses(rep, rs)
  }

  /** The report's totals are those of the rounds. */
  lemma SummarizeTotals(rs: seq<RoundResult>, withChoice: bool)
    ensures ReportTotals(Summarize(Aggregate(rs), |rs|, withChoice), rs)
  {
    AggregateTotals(rs);
  }

  /** The report's first-card entries add up to the rounds and their net. */
  lemma SummarizeCardSums(rs: seq<RoundResult>, withChoice: bool)
    ensures var es := Summarize(Aggregate(rs), |rs|, withChoice).byFirstCard;
      SumPlays(es) == |rs| && SumEntryNet(es) == SumNet(rs)
  {
    var st := Aggregate(rs);
    AggregateTotals(rs);
    AggregateCardSum(rs);
    BreakdownPlays(CardNames, st, withChoice);
    BreakdownNet(CardNames, st, withChoice);
  }

  /** The report has an entry exactly for each card seen, and every entry
      counts at least one play. */
  lemma SummarizeCardEntries(rs: seq<RoundResult>, withChoice: bool)
    ensures var es := Summarize(Aggregate(rs), |rs|, withChoice).byFirstCard;
      && (forall i :: 0 <= i < |es| ==> es[i].totalPlays > 0 && es[i].card in FirstCards(rs))
      && (forall n :: n in FirstCards(rs) ==> HasEntry(es, n))
  {
    var st := Aggregate(rs);
    var es := Breakdown(CardNames, st, withChoice);
    AggregateCardKeys(rs);
    CardNamesDistinct();
    BreakdownCovers(CardNames, st, withChoice);
    forall i | 0 <= i < |es|
      ensures es[i].totalPlays > 0 && es[i].card in FirstCards(rs)
    {
      assert EntryFor(es[i], st, withChoice);
    }
  }

  /** Every entry of the report quotes the table payout for its card's
      value. */
  lemma SummarizeCardPayouts(rs: seq<RoundResult>, withChoice: bool)
    ensures var es := Summarize(Aggregate(rs), |rs|, withChoice).byFirstCard;
      forall i :: 0 <= i < |es| ==> EntryPays(es[i])
  {
    var st := Aggregate(rs);
    var es := Breakdown(CardNames, st, withChoice);
    forall i | 0 <= i < |es|
      ensures EntryPays(es[i])
    {
      assert EntryFor(es[i], st, withChoice);
    }
  }

  /** A breakdown over names of strictly increasing value lists its
      entries in that order. */
  lemma {:induction false} BreakdownOrdered(names: seq<Name>, st: Stats, withChoice: bool)
    requires forall i, j :: 0 <= i < j < |names| ==> Value(names[i]) < Value(names[j])
    ensures ValueOrdered(Breakdown(names, st, withChoice))
  {
    if names != [] {
      var tail := names[1..];
      assert forall i, j :: 0 <= i < j < |tail| ==> tail[i] == names[i + 1] && tail[j] == names[j + 1];
      BreakdownOrdered(tail, st, withChoice);
      var es := Breakdown(names, st, withChoice);
      var rest := Breakdown(tail, st, withChoice);
      if names[0] in st.byFirstCard {
        assert es[1..] == rest;
        forall j | 0 < j < |es|
          ensures Value(es[0].card) < Value(es[j].card)
        {
          assert es[j] == rest[j - 1];
          var k :| 0 <= k < |tail| && tail[k] == es[j].card;
          assert tail[k] == names[k + 1];
        }
        assert ValueOrdered(es) by {
          forall i, j | 0 <= i < j < |es|
            ensures Value(es[i].card) < Value(es[j].card)
          {
            if i > 0 {
              assert es[i] == rest[i - 1] && es[j] == rest[j - 1];
            }
          }
        }
      } else {
        assert es == rest;
      }
    }
  }

  /** The card names strictly increase in value. */
  lemma CardNamesAscending()
    ensures forall i, j :: 0 <= i < j < |CardNames| ==> Value(CardNames[i]) < Value(CardNames[j])
  {
    ValueBijective();
  }

  /** Each entry of the report reports the tally of the rounds on its card,
      and the entries follow CardNames. */
  lemma SummarizeCardTallies(rs: seq<RoundResult>, withChoice: bool)
    ensures var es := Summarize(Aggregate(rs), |rs|, withChoice).byFirstCard;
      && ValueOrdered(es)
      && forall i :: 0 <= i < |es| ==> EntryReports(es[i], TallyOf(RoundsOn(rs, es[i].card)))
  {
    var st := Aggregate(rs);
    var es := Breakdown(CardNames, st, withChoice);
    CardNamesAscending();
    BreakdownOrdered(CardNames, st, withChoice);
    AggregateCardTallies(rs);
    forall i | 0 <= i < |es|
      ensures EntryReports(es[i], TallyOf(RoundsOn(rs, es[i].card)))
    {
      assert EntryFor(es[i], st, withChoice);
      assert Get(st.byFirstCard, es[i].card) == st.byFirstCard[es[i].card];
    }
  }

  /** The report's first-card breakdown accounts for the rounds. */
  lemma SummarizeCards(rs: seq<RoundResult>, withChoice: bool)
    ensures ReportCards(Summarize(Aggregate(rs), |rs|, withChoice), rs)
  {
    SummarizeCardSums(rs, withChoice);
    SummarizeCardEntries(rs, withChoice);
    SummarizeCardTallies(rs, withChoice);
    SummarizeCardPayouts(rs, withChoice);
  }

  /** When every round chose by the optimal rule, every entry of the
      report reports the optimal guess for its card. */
  lemma SummarizeOptimalChoices(rs: seq<RoundResult>)
    requires ChoseBy(rs, OptimalFor)
    ensures var es := Summarize(Aggregate(rs), |rs|, true).byFirstCard;
      forall i :: 0 <= i < |es| ==> es[i].optimalChoice == Some(OptimalFor(es[i].card))
  {
    var st := Aggregate(rs);
    var es := Breakdown(CardNames, st, true);
    AggregateCardKeys(rs);
    AggregateChoiceKeys(rs);
    AggregateLastChoice(rs, OptimalFor);
    forall i | 0 <= i < |es|
      ensures es[i].optimalChoice == Some(OptimalFor(es[i].card))
    {
      assert EntryFor(es[i], st, true);
    }
  }

  /** The report's guess breakdown accounts for the rounds. */
  lemma SummarizeGuesses(rs: seq<RoundResult>, withChoice: bool)
    ensures ReportGuesses(Summarize(Aggregate(rs), |rs|, withChoice), rs)
  {
    SummarizeGuessSums(rs, withChoice);
    SummarizeGuessTallies(rs, withChoice);
  }

  /** The report's three guess tallies add up to the rounds and their net. */
  lemma SummarizeGuessSums(rs: seq<RoundResult>, withChoice: bool)
    ensures var m := Summarize(Aggregate(rs), |rs|, withChoice).byChoice;
      && (forall c: Choice :: c in m)
      && m[Higher].Plays() + m[Lower].Plays() + m[Tie].Plays() == |rs|
      && m[Higher].net + m[Lower].net + m[Tie].net == SumNet(rs)
  {
    var st := Aggregate(rs);
    AggregateTotals(rs);
    AggregateGuessKeys(rs);
    AggregateChoiceSum(rs);
    ChoiceSum(st.byChoice);
    assert Get(st.byChoice, Higher) == st.byChoice[Higher];
    assert Get(st.byChoice, Lower) == st.byChoice[Lower];
    assert Get(st.byChoice, Tie) == st.byChoice[Tie];
  }

  /** The report's tally under each guess is that of the rounds that made
      it. */
  lemma SummarizeGuessTallies(rs: seq<RoundResult>, withChoice: bool)
    ensures var m := Summarize(Aggregate(rs), |rs|, withChoice).byChoice;
      forall c: Choice :: c in m && m[c] == TallyOf(RoundsGuessing(rs, c))
  {
    var m := Aggregate(rs).byChoice;
    AggregateGuessKeys(rs);
    AggregateChoiceTallies(rs);
    forall c: Choice
      ensures c in m && m[c] == TallyOf(RoundsGuessing(rs, c))
    {
      assert Get(m, c) == m[c];
    }
  }

  /** The report built from the folded totals accounts for the rounds. */
  lemma SummarizeAccounts(rs: seq<RoundResult>, withChoice: bool)
    ensures ReportAccounts(Summarize(Aggregate(rs), |rs|, withChoice), rs)
  {
    SummarizeTotals(rs, withChoice);
    SummarizeCards(rs, withChoice);
    SummarizeGuesses(rs, withChoice);
  }

  /** The loop of simulate_random_strategy: play the rounds one after the
      other from the deck the previous round left, folding each into the
      running totals. */
  method PlayRandom(inputs: seq<RoundInput>) returns (st: Stats)
    requires ValidInputs(inputs)
    ensures st == Aggregate(RunRandom(inputs).1)
  {
    var deck: seq<Name> := [];
    st := Start();
    var i := 0;
    while i < |inputs|
      invariant 0 <= i <= |inputs|
      invariant deck == RunRandom(inputs[..i]).0
      invariant st == Aggregate(RunRandom(inputs[..i]).1)
    {
      PlayRandomStep(inputs, i);
      var played := PlayRound(deck, inputs[i].choice, inputs[i].draws);
      deck := played.0;
      st := Record(st, played.1);
      i := i + 1;
    }
    TakeAll(inputs);
  }

  /** simulate_random_strategy: play N rounds with the given guesses and
      summarize the totals. */
  method SimulateRandom(inputs: seq<RoundInput>) returns (report: Report)
    requires |inputs| > 0
    requires ValidInputs(inputs)
    ensures report.totalSimulations == |inputs|
    ensures ReportAccounts(report, RunRandom(inputs).1)
    ensures forall i :: 0 <= i < |report.byFirstCard| ==> report.byFirstCard[i].optimalChoice == None
  {
    var st := PlayRandom(inputs);
    SummarizeAccounts(RunRandom(inputs).1, false);
    report := Summarize(st, |inputs|, false);
  }

  /** The report folded from the optimal strategy's rounds accounts for
      them and gives each first card its optimal guess. */
  lemma OptimalReport(shuffles: seq<seq<nat>>)
    requires ValidShuffles(shuffles)
    ensures var rs := RunOptimal(shuffles).1;
      var report := Summarize(Aggregate(rs), |rs|, true);
      && ReportAccounts(report, rs)
      && forall i :: 0 <= i < |report.byFirstCard| ==>
           report.byFirstCard[i].optimalChoice == Some(OptimalFor(report.byFirstCard[i].card))
  {
    var rs := RunOptimal(shuffles).1;
    SummarizeAccounts(rs, true);
    RunOptimalRounds(shuffles);
    SummarizeOptimalChoices(rs);
  }

  /** The loop of simulate_optimal_strategy: before each round, refill if
      needed and look at the card about to be drawn to pick the guess with
      the largest expected value; then play and fold the round into the
      running totals. */
  method PlayOptimal(shuffles: seq<seq<nat>>) returns (st: Stats)
    requires ValidShuffles(shuffles)
    ensures st == Aggregate(RunOptimal(shuffles).1)
  {
    var deck: seq<Name> := [];
    st := Start();
    var i := 0;
    while i < |shuffles|
      invariant 0 <= i <= |shuffles|
      invariant deck == RunOptimal(shuffles[..i]).0
      invariant st == Aggregate(RunOptimal(shuffles[..i]).1)
    {
      PlayOptimalStep(shuffles, i);
      var played := OptimalRound(deck, shuffles[i]);
      deck := played.0;
      st := Record(st, played.1);
      i := i + 1;
    }
    TakeAll(shuffles);
  }

  /** simulate_optimal_strategy: play N rounds with the optimal guess and
      summarize the totals; each first-card entry reports the optimal guess
      for that card. */
  method SimulateOptimal(shuffles: seq<seq<nat>>) returns (report: Report)
    requires |shuffles| > 0
    requires ValidShuffles(shuffles)
    ensures report.totalSimulations == |shuffles|
    ensures ReportAccounts(report, RunOptimal(shuffles).1)
    ensures forall i :: 0 <= i < |report.byFirstCard| ==>
      report.byFirstCard[i].optimalChoice == Some(OptimalFor(report.byFirstCard[i].card))
  {
    var st := PlayOptimal(shuffles);
    OptimalReport(shuffles);
    report := Summarize(st, |shuffles|, true);
  }
}

=== FILE: tallies.dfy ===
/** Per-category win/loss/net tallies, kept in maps that behave like the
    source's default dictionaries: reading a missing key gives an empty
    tally, and updating a key creates it. */
module Tallies {
  import opened Seqs

  /** Wins, losses and the net result of a group of rounds. */
  datatype Tally = Tally(wins: nat, losses: nat, net: int)
  {
    /** The number of rounds in the group. */
    function Plays(): nat
    {
      wins + losses
    }
  }

  function Zero(): Tally
  {
    Tally(0, 0, 0)
  }

  function Plus(a: Tally, b: Tally): Tally
  {
    Tally(a.wins + b.wins, a.losses + b.losses, a.net + b.net)
  }

  /** The tally of a single round. */
  function OfRound(win: bool, net: int): (t: Tally)
    ensures t.Plays() == 1
    ensures t.wins == 1 <==> win
    ensures t.net == net
  {
    if win then Tally(1, 0, net) else Tally(0, 1, net)
  }

  /** Reads a key of a default dictionary. */
  function Get<K>(m: map<K, Tally>, k: K): Tally
  {
    if k in m then m[k] else Zero()
  }

  /** Adds a tally to the entry of key k, creating the entry if needed. */
  function Bump<K>(m: map<K, Tally>, k: K, t: Tally): (m': map<K, Tally>)
    ensures m'.Keys == m.Keys + {k}
    ensures m'[k] == Plus(Get(m, k), t)
    ensures forall j :: j in m && j != k ==> m'[j] == m[j]
  {
    m[k := Plus(Get(m, k), t)]
  }

  /** Reading any key after a Bump: key k gains t, every other key reads
      as before. */
  lemma GetBump<K>(m: map<K, Tally>, k: K, t: Tally, j: K)
    ensures Get(Bump(m, k, t), j) == if j == k then Plus(Get(m, k), t) else Get(m, j)
  {
  }

  /** The sum of the entries of the listed keys; a missing key adds nothing. */
  function SumOver<K>(keys: seq<K>, m: map<K, Tally>): Tally
  {
    if keys == [] then Zero() else Plus(Get(m, keys[0]), SumOver(keys[1..], m))
  }

  /** Adding t to a key that is not listed leaves the sum unchanged. */
  lemma {:induction false} SumOverBumpAbsent<K>(keys: seq<K>, m: map<K, Tally>, k: K, t: Tally)
    requires k !in keys
    ensures SumOver(keys, Bump(m, k, t)) == SumOver(keys, m)
  {
    if keys != [] {
      var m' := Bump(m, k, t);
      assert keys[0] != k;
      assert Get(m', keys[0]) == Get(m, keys[0]);
      assert k !in keys[1..];
      SumOverBumpAbsent(keys[1..], m, k, t);
    }
  }

  /** Adding t to a key listed once adds t to the sum. */
  lemma {:induction false} SumOverBumpOnce<K>(keys: seq<K>, m: map<K, Tally>, k: K, t: Tally)
    requires Distinct(keys) && k in keys
    ensures SumOver(keys, Bump(m, k, t)) == Plus(SumOver(keys, m), t)
  {
    var m' := Bump(m, k, t);
    var x := keys[0];
    if x == k {
      assert forall j :: 0 <= j < |keys[1..]| ==> keys[1..][j] == keys[j + 1] != keys[0];
      assert k !in keys[1..];
      SumOverBumpAbsent(keys[1..], m, k, t);
      assert Get(m', x) == Plus(Get(m, x), t);
      PlusMovesLast(Get(m, x), t, SumOver(keys[1..], m));
    } else {
      assert Get(m', x) == Get(m, x);
      assert k in keys[1..];
      assert Distinct(keys[1..]) by {
        forall i, j | 0 <= i < j < |keys[1..]|
          ensures keys[1..][i] != keys[1..][j]
        {
          assert keys[1..][i] == keys[i + 1] && keys[1..][j] == keys[j + 1];
        }
      }
      SumOverBumpOnce(keys[1..], m, k, t);
      PlusAssociates(Get(m, x), SumOver(keys[1..], m), t);
    }
  }

  lemma PlusMovesLast(a: Tally, t: Tally, b: Tally)
    ensures Plus(Plus(a, t), b) == Plus(Plus(a, b), t)
  {
  }

  lemma PlusAssociates(a: Tally, b: Tally, t: Tally)
    ensures Plus(a, Plus(b, t)) == Plus(Plus(a, b), t)
  {
  }

  /** The sum over keys none of which is in the map is empty. */
  lemma {:induction false} SumOverMissing<K>(keys: seq<K>, m: map<K, Tally>)
    requires forall i :: 0 <= i < |keys| ==> keys[i] !in m
    ensures SumOver(keys, m) == Zero()
  {
    if keys != [] {
      assert keys[0] !in m;
      assert forall i :: 0 <= i < |keys[1..]| ==> keys[1..][i] == keys[i + 1];
      SumOverMissing(keys[1..], m);
      assert Get(m, keys[0]) == Zero();
    }
  }

  /** The sum over a non-empty list of keys starts with its first key's
      entry. */
  lemma SumOverFirst<K>(keys: seq<K>, m: map<K, Tally>)
    requires keys != []
    ensures SumOver(keys, m) == Plus(Get(m, keys[0]), SumOver(keys[1..], m))
  {
  }

  lemma SumOverEmpty<K>(keys: seq<K>, m: map<K, Tally>)
    requires |keys| == 0
    ensures SumOver(keys, m) == Zero()
  {
  }

  /** The sum over three keys adds their three entries. */
  lemma SumOverThree<K>(a: K, b: K, c: K, m: map<K, Tally>)
    ensures SumOver([a, b, c], m) == Plus(Get(m, a), Plus(Get(m, b), Plus(Get(m, c), Zero())))
  {
    SumOverFirst([a, b, c], m);
    assert [a, b, c][1..] == [b, c];
    SumOverTwo(b, c, m);
  }

  /** The sum over two keys adds their two entries. */
  lemma SumOverTwo<K>(b: K, c: K, m: map<K, Tally>)
    ensures SumOver([b, c], m) == Plus(Get(m, b), Plus(Get(m, c), Zero()))
  {
    SumOverFirst([b, c], m);
    assert [b, c][1..] == [c];
    SumOverFirst([c], m);
    SumOverEmpty([c][1..], m);
  }
}

=== FILE: twotruths.dfy ===
/** Two Truths and a Lie with three dice (two.py): three statements about a
    roll, the index of the first false one, and the simulation that counts
    how often a random guess names it. */
module TwoTruths {
  import opened Wrappers
  import opened Seqs

  /** A roll of three dice; the statements read any three integers. */
  type Roll = d: seq<int> | |d| == 3 witness [1, 1, 1]

  /** The three statements about a roll, in the order they are indexed. */
  datatype Statements = Statements(atLeastTwoSame: bool, sumAtLeast11: bool, allDifferent: bool)

  /** The names under which the breakdown reports each index. */
  const StatementNames: seq<string> := ["At least 2 same", "Sum >= 11", "All different"]

  /** Puts positions i and j in order. */
  function CompareSwap(s: seq<int>, i: nat, j: nat): (r: seq<int>)
    requires i < j < |s|
    ensures |r| == |s| && multiset(r) == multiset(s)
    ensures r[i] <= r[j]
    ensures {r[i], r[j]} == {s[i], s[j]}
    ensures forall k :: 0 <= k < |s| && k != i && k != j ==> r[k] == s[k]
  {
    if s[i] > s[j] then Swap(s, i, j) else s
  }

  /** Sorting three numbers: ascending, and the same numbers. */
  function Sort3(d: Roll): (s: Roll)
    ensures s[0] <= s[1] <= s[2]
    ensures multiset(s) == multiset(d)
  {
    CompareSwap(CompareSwap(CompareSwap(d, 0, 1), 1, 2), 0, 1)
  }

  /** evaluate_statements: the pair tests look at the sorted dice, the sum
      at the dice as given. Whatever the order, "at least two the same"
      holds exactly when the dice are not pairwise distinct, and "all
      different" exactly when they are. */
  function EvaluateStatements(dice: Roll): (st: Statements)
    ensures st.atLeastTwoSame <==> !Distinct(dice)
    ensures st.allDifferent <==> Distinct(dice)
    ensures st.sumAtLeast11 <==> SeqSum(dice) >= 11
  {
    var s := Sort3(dice);
    DistinctSameElements(s, dice);
    var d1, d2, d3 := s[0], s[1], s[2];
    Statements(d1 == d2 || d2 == d3 || d1 == d3,
               SeqSum(dice) >= 11,
               d1 != d2 && d2 != d3 && d1 != d3)
  }

  /** The statements as the list the source searches. */
  function AsList(st: Statements): seq<bool>
  {
    [st.atLeastTwoSame, st.sumAtLeast11, st.allDifferent]
  }

  /** The position of the first occurrence of x, if there is one
      (list.index, whose ValueError is None here). */
  function IndexOf<T(==)>(xs: seq<T>, x: T): (r: Option<nat>)
    ensures r.None? <==> x !in xs
    ensures r.Some? ==> r.value < |xs| && xs[r.value] == x
    ensures r.Some? ==> forall j :: 0 <= j < r.value ==> xs[j] != x
  {
    if xs == [] then None
    else if xs[0] == x then Some(0)
    else match IndexOf(xs[1..], x)
      case None => None
      case Some(k) => Some(k + 1)
  }

  /** find_false_statement: the index of the first false statement. The
      index search never fails, because the first and last statements
      always disagree. The result is 0 exactly for pairwise distinct dice;
      otherwise 1 when the sum is under 11 and 2 when it is not. */
  function FindFalseStatement(dice: Roll): (k: nat)
    ensures k < 3
    ensures k == 0 <==> Distinct(dice)
    ensures k == 1 <==> !Distinct(dice) && SeqSum(dice) < 11
    ensures k == 2 <==> !Distinct(dice) && SeqSum(dice) >= 11
  {
    var st := EvaluateStatements(dice);
    var xs := AsList(st);
    assert xs[0] == st.atLeastTwoSame && xs[1] == st.sumAtLeast11 && xs[2] == st.allDifferent;
    var r := IndexOf(xs, false);
    assert r.Some?;
    r.value
  }

  /** "At least two the same" and "all different" contradict each other
      on every roll, so at least one statement is false. */
  lemma StatementsComplementary(dice: Roll)
    ensures EvaluateStatements(dice).atLeastTwoSame == !EvaluateStatements(dice).allDifferent
    ensures false in AsList(EvaluateStatements(dice))
  {
    var st := EvaluateStatements(dice);
    assert AsList(st)[0] == st.atLeastTwoSame && AsList(st)[2] == st.allDifferent;
  }

  /** How many of the statements are false. */
  function FalseCount(st: Statements): nat
  {
    (if st.atLeastTwoSame then 0 else 1)
    + (if st.sumAtLeast11 then 0 else 1)
    + (if st.allDifferent then 0 else 1)
  }

  /** The claim that exactly one statement is false holds exactly when the
      sum is 11 or more; below 11 two statements are false, and the search
      returns the lower index. */
  lemma ExactlyOneFalseIff(dice: Roll)
    ensures FalseCount(EvaluateStatements(dice)) == 1 <==> SeqSum(dice) >= 11
    ensures FalseCount(EvaluateStatements(dice)) == 2 <==> SeqSum(dice) < 11
  {
  }

  /** Three aces make two statements false; the lower index, 1, is
      returned. */
  lemma ThreeAcesTwoFalse()
    ensures FalseCount(EvaluateStatements([1, 1, 1])) == 2
    ensures FindFalseStatement([1, 1, 1]) == 1
  {
    assert SeqSum([1, 1, 1]) == 3 by {
      assert [1, 1, 1][1..] == [1, 1] && [1, 1][1..] == [1];
    }
    assert !Distinct([1, 1, 1]) by {
      assert [1, 1, 1][0] == [1, 1, 1][1];
    }
  }

  /** One, two, three makes two statements false; index 0 is returned. */
  lemma OneTwoThreeTwoFalse()
    ensures FalseCount(EvaluateStatements([1, 2, 3])) == 2
    ensures FindFalseStatement([1, 2, 3]) == 0
  {
    assert SeqSum([1, 2, 3]) == 6 by {
      assert [1, 2, 3][1..] == [2, 3] && [2, 3][1..] == [3];
    }
  }

  /** Reordering the dice changes neither the statements nor the answer. */
  lemma PermutationInvariant(d: Roll, e: Roll)
    requires multiset(d) == multiset(e)
    ensures EvaluateStatements(d) == EvaluateStatements(e)
    ensures FindFalseStatement(d) == FindFalseStatement(e)
  {
    DistinctSameElements(d, e);
    SumPermutation(d, e);
  }

  /** One game of the simulation: the roll and the player's guess. */
  datatype Throw = Throw(dice: Roll, guess: int)

  /** The number of games in which the guess names the false statement. */
  function PlayerWins(ts: seq<Throw>): (n: nat)
    ensures n <= |ts|
  {
    if ts == [] then 0
    else
      var t := ts[|ts| - 1];
      PlayerWins(ts[..|ts| - 1]) + (if t.guess == FindFalseStatement(t.dice) then 1 else 0)
  }

  /** The number of games whose false statement has index k. */
  function Occurrences(ts: seq<Throw>, k: int): (n: nat)
    ensures n <= |ts|
  {
    if ts == [] then 0
    else
      var t := ts[|ts| - 1];
      Occurrences(ts[..|ts| - 1], k) + (if FindFalseStatement(t.dice) == k then 1 else 0)
  }

  /** The number of games whose false statement has index k and in which
      the player guessed it. */
  function WinsAt(ts: seq<Throw>, k: int): (n: nat)
    ensures n <= Occurrences(ts, k)
  {
    if ts == [] then 0
    else
      var t := ts[|ts| - 1];
      WinsAt(ts[..|ts| - 1], k) + (if FindFalseStatement(t.dice) == k && t.guess == k then 1 else 0)
  }

  /** Every game has its false statement at index 0, 1 or 2, so the three
      counts partition the games, and so do the player's wins. */
  lemma {:induction false} OccurrencesPartition(ts: seq<Throw>)
    ensures Occurrences(ts, 0) + Occurrences(ts, 1) + Occurrences(ts, 2) == |ts|
    ensures WinsAt(ts, 0) + WinsAt(ts, 1) + WinsAt(ts, 2) == PlayerWins(ts)
    ensures forall k :: (k < 0 || k > 2) ==> Occurrences(ts, k) == 0
  {
    if ts != [] {
      var prefix := ts[..|ts| - 1];
      OccurrencesPartition(prefix);
      var t := ts[|ts| - 1];
      var f := FindFalseStatement(t.dice);
      assert 0 <= f < 3;
      forall k | k < 0 || k > 2
        ensures Occurrences(ts, k) == 0
      {
        assert Occurrences(prefix, k) == 0;
      }
    }
  }

  /** The wins and losses of the player on one false-statement index. */
  datatype Split = Split(playerWins: nat, houseWins: nat)
  {
    function Total(): nat
    {
      playerWins + houseWins
    }
  }

  /** One line of the breakdown by false statement. */
  datatype BreakdownEntry = BreakdownEntry(
    index: nat,
    statement: string,
    occurrences: nat,
    playerWins: nat,
    houseWins: nat)

  /** The integer part of the simulation's results. */
  datatype GameReport = GameReport(
    simulations: nat,
    playerWins: nat,
    houseWins: nat,
    breakdown: seq<BreakdownEntry>)

  /** The counts the simulation loop has gathered over the games ts: the
      per-index split has an entry exactly for the indices that occurred,
      holding how often the player and the house won on them. */
  predicate Gathered(outcomes: map<int, Split>, ts: seq<Throw>)
  {
    && (forall k :: k in outcomes ==> SplitOf(outcomes[k], ts, k))
    && (forall k :: 0 <= k < 3 && Occurrences(ts, k) > 0 ==> k in outcomes)
  }

  /** The split recorded for index k: it occurred, and the player won on
      it exactly the games where the guess was k. */
  predicate SplitOf(s: Split, ts: seq<Throw>, k: int)
  {
    && 0 <= k < 3
    && Occurrences(ts, k) > 0
    && s.playerWins == WinsAt(ts, k)
    && s.Total() == Occurrences(ts, k)
  }

  /** The breakdown entry describes the split recorded for its index. */
  predicate EntryOf(e: BreakdownEntry, outcomes: map<int, Split>)
  {
    && e.index < 3
    && e.index in outcomes
    && e.statement == StatementNames[e.index]
    && e.playerWins == outcomes[e.index].playerWins
    && e.houseWins == outcomes[e.index].houseWins
    && e.occurrences == e.playerWins + e.houseWins
  }

  /** The entries' indices strictly increase. */
  predicate IndexOrdered(es: seq<BreakdownEntry>)
  {
    forall i, j :: 0 <= i < j < |es| ==> es[i].index < es[j].index
  }

  predicate HasIndex(es: seq<BreakdownEntry>, k: int)
  {
    exists i :: 0 <= i < |es| && es[i].index == k
  }

  /** The breakdown over the statement indices from k on: an entry, in
      index order, for each index present in the split. */
  function BreakdownFrom(outcomes: map<int, Split>, k: nat): (es: seq<BreakdownEntry>)
    requires k <= 3
    ensures forall i :: 0 <= i < |es| ==> k <= es[i].index && EntryOf(es[i], outcomes)
    ensures forall j :: k <= j < 3 && j in outcomes ==> HasIndex(es, j)
    ensures IndexOrdered(es)
    decreases 3 - k
  {
    if k == 3 then []
    else
      var rest := BreakdownFrom(outcomes, k + 1);
      if k in outcomes then
        var s := outcomes[k];
        var e := BreakdownEntry(k, StatementNames[k], s.Total(), s.playerWins, s.houseWins);
        BreakdownCons(outcomes, k, e, rest);
        [e] + rest
      else rest
  }

  /** Putting the entry of index k in front of the breakdown from k+1 on
      gives the breakdown from k on. */
  lemma BreakdownCons(outcomes: map<int, Split>, k: nat, e: BreakdownEntry, rest: seq<BreakdownEntry>)
    requires k < 3 && k in outcomes
    requires e == BreakdownEntry(k, StatementNames[k], outcomes[k].Total(), outcomes[k].playerWins, outcomes[k].houseWins)
    requires forall i :: 0 <= i < |rest| ==> k + 1 <= rest[i].index && EntryOf(rest[i], outcomes)
    requires forall j :: k + 1 <= j < 3 && j in outcomes ==> HasIndex(rest, j)
    requires IndexOrdered(rest)
    ensures forall i :: 0 <= i < |rest| + 1 ==> k <= ([e] + rest)[i].index && EntryOf(([e] + rest)[i], outcomes)
    ensures forall j :: k <= j < 3 && j in outcomes ==> HasIndex([e] + rest, j)
    ensures IndexOrdered([e] + rest)
  {
    var es := [e] + rest;
    assert forall i :: 0 <= i < |rest| ==> es[i + 1] == rest[i];
    OrderedCons(e, rest);
    forall j | k <= j < 3 && j in outcomes
      ensures HasIndex(es, j)
    {
      if j == k {
        assert es[0].index == j;
      } else {
        var i :| 0 <= i < |rest| && rest[i].index == j;
        assert es[i + 1].index == j;
      }
    }
  }

  /** An entry whose index is below all of an ordered list's indices
      keeps the list ordered in front of it. */
  lemma OrderedCons(e: BreakdownEntry, rest: seq<BreakdownEntry>)
    requires forall i :: 0 <= i < |rest| ==> e.index < rest[i].index
    requires IndexOrdered(rest)
    ensures IndexOrdered([e] + rest)
  {
    var es := [e] + rest;
    forall i, j | 0 <= i < j < |es|
      ensures es[i].index < es[j].index
    {
      assert es[j] == rest[j - 1];
      if i > 0 {
        assert es[i] == rest[i - 1];
      }
    }
  }

  /** The occurrences reported by a list of breakdown entries. */
  function SumOccurrences(es: seq<BreakdownEntry>): int
  {
    if es == [] then 0 else es[0].occurrences + SumOccurrences(es[1..])
  }

  /** The occurrences of the indices from k to 2. */
  function OccurrencesFrom(ts: seq<Throw>, k: nat): int
    requires k <= 3
    decreases 3 - k
  {
    if k == 3 then 0 else Occurrences(ts, k) + OccurrencesFrom(ts, k + 1)
  }

  /** The breakdown from index k on reports every game whose false index is
      k or later. */
  lemma {:induction false} BreakdownFromSum(outcomes: map<int, Split>, ts: seq<Throw>, k: nat)
    requires k <= 3 && Gathered(outcomes, ts)
    ensures SumOccurrences(BreakdownFrom(outcomes, k)) == OccurrencesFrom(ts, k)
    decreases 3 - k
  {
    if k < 3 {
      BreakdownFromSum(outcomes, ts, k + 1);
      var rest := BreakdownFrom(outcomes, k + 1);
      if k in outcomes {
        var s := outcomes[k];
        var e := BreakdownEntry(k, StatementNames[k], s.Total(), s.playerWins, s.houseWins);
        assert BreakdownFrom(outcomes, k) == [e] + rest;
        assert ([e] + rest)[1..] == rest;
      }
    }
  }

  /** The loop body's update of the split: one more win for the player or
      for the house on the index of the false statement. */
  function Count(outcomes: map<int, Split>, f: int, playerWon: bool): (m: map<int, Split>)
    ensures m.Keys == outcomes.Keys + {f}
    ensures forall k :: k in outcomes && k != f ==> m[k] == outcomes[k]
    ensures var s := if f in outcomes then outcomes[f] else Split(0, 0);
      && m[f].playerWins == s.playerWins + (if playerWon then 1 else 0)
      && m[f].houseWins == s.houseWins + (if playerWon then 0 else 1)
  {
    var s := if f in outcomes then outcomes[f] else Split(0, 0);
    if playerWon then outcomes[f := s.(playerWins := s.playerWins + 1)]
    else outcomes[f := s.(houseWins := s.houseWins + 1)]
  }

  /** The counts of a list of games are those of all but the last game,
      plus what the last game adds. */
  lemma LastCounts(ts: seq<Throw>, k: int)
    requires ts != []
    ensures var t := ts[|ts| - 1];
      var f := FindFalseStatement(t.dice);
      && Occurrences(ts, k) == Occurrences(ts[..|ts| - 1], k) + (if f == k then 1 else 0)
      && WinsAt(ts, k) == WinsAt(ts[..|ts| - 1], k) + (if f == k && t.guess == k then 1 else 0)
  {
  }

  /** The split after counting the games ts one by one. */
  function Gather(ts: seq<Throw>): (m: map<int, Split>)
    ensures forall k :: k in m ==> 0 <= k < 3 && m[k].Total() > 0
  {
    if ts == [] then map[]
    else
      var t := ts[|ts| - 1];
      var f := FindFalseStatement(t.dice);
      Count(Gather(ts[..|ts| - 1]), f, t.guess == f)
  }

  /** The counted split has an entry exactly for each index that occurred,
      and records on it how often the player and the house won. */
  lemma {:induction false} GatherGathered(ts: seq<Throw>)
    ensures Gathered(Gather(ts), ts)
  {
    if ts != [] {
      GatherGathered(ts[..|ts| - 1]);
      GatheredStep(Gather(ts[..|ts| - 1]), ts);
    }
  }

  /** Counting one more game keeps the split in step with the games. */
  lemma GatheredStep(outcomes: map<int, Split>, ts: seq<Throw>)
    requires ts != [] && Gathered(outcomes, ts[..|ts| - 1])
    ensures var t := ts[|ts| - 1];
      var f := FindFalseStatement(t.dice);
      Gathered(Count(outcomes, f, t.guess == f), ts)
  {
    var t := ts[|ts| - 1];
    var f := FindFalseStatement(t.dice);
    var m := Count(outcomes, f, t.guess == f);
    forall k | k in m
      ensures SplitOf(m[k], ts, k)
    {
      CountedSplit(outcomes, ts, k);
    }
    forall k | 0 <= k < 3 && Occurrences(ts, k) > 0
      ensures k in m
    {
      LastCounts(ts, k);
    }
  }

  /** After counting one more game, each recorded index holds the split of
      all the games. */
  lemma CountedSplit(outcomes: map<int, Split>, ts: seq<Throw>, k: int)
    requires ts != [] && Gathered(outcomes, ts[..|ts| - 1])
    requires var t := ts[|ts| - 1];
      var f := FindFalseStatement(t.dice);
      k in Count(outcomes, f, t.guess == f)
    ensures var t := ts[|ts| - 1];
      var f := FindFalseStatement(t.dice);
      SplitOf(Count(outcomes, f, t.guess == f)[k], ts, k)
  {
    var prefix := ts[..|ts| - 1];
    var t := ts[|ts| - 1];
    var f := FindFalseStatement(t.dice);
    var m := Count(outcomes, f, t.guess == f);
    LastCounts(ts, k);
    if k != f {
      assert m[k] == outcomes[k];
      assert SplitOf(outcomes[k], prefix, k);
    } else {
      var s := if f in outcomes then outcomes[f] else Split(0, 0);
      assert f in outcomes ==> SplitOf(s, prefix, f);
      assert f !in outcomes ==> Occurrences(prefix, f) == 0 && WinsAt(prefix, f) == 0;
    }
  }

  /** The breakdown of a split gathered from the games ts reports, for
      each index that occurred and only for those, how often it occurred
      and how often the player won on it; together the entries account for
      every game. */
  lemma BreakdownReports(outcomes: map<int, Split>, ts: seq<Throw>)
    requires Gathered(outcomes, ts)
    ensures var es := BreakdownFrom(outcomes, 0);
      && (forall i :: 0 <= i < |es| ==>
            && es[i].index < 3
            && es[i].statement == StatementNames[es[i].index]
            && es[i].occurrences == Occurrences(ts, es[i].index) > 0
            && es[i].playerWins == WinsAt(ts, es[i].index)
            && es[i].playerWins + es[i].houseWins == es[i].occurrences)
      && (forall k :: 0 <= k < 3 && Occurrences(ts, k) > 0 ==> HasIndex(es, k))
  {
    var es := BreakdownFrom(outcomes, 0);
    forall i | 0 <= i < |es|
      ensures es[i].occurrences == Occurrences(ts, es[i].index) > 0
      ensures es[i].playerWins == WinsAt(ts, es[i].index)
    {
      assert EntryOf(es[i], outcomes);
      assert SplitOf(outcomes[es[i].index], ts, es[i].index);
    }
  }

  /** Together the breakdown entries account for every game. */
  lemma BreakdownTotal(outcomes: map<int, Split>, ts: seq<Throw>)
    requires Gathered(outcomes, ts)
    ensures SumOccurrences(BreakdownFrom(outcomes, 0)) == |ts|
  {
    OccurrencesPartition(ts);
    BreakdownFromSum(outcomes, ts, 0);
  }

  /** One more game adds one player win exactly when the guess names the
      false index, and is counted into the split. */
  lemma CountStep(throws: seq<Throw>, i: nat)
    requires i < |throws|
    ensures var t := throws[i];
      var f := FindFalseStatement(t.dice);
      && PlayerWins(throws[..i + 1]) == PlayerWins(throws[..i]) + (if t.guess == f then 1 else 0)
      && Gather(throws[..i + 1]) == Count(Gather(throws[..i]), f, t.guess == f)
  {
    var ts := throws[..i + 1];
    PrefixStep(throws, i);
    assert |ts| == i + 1 && ts[..|ts| - 1] == throws[..i] && ts[|ts| - 1] == throws[i];
  }

  /** The loop of simulate_game: the player's wins, the house's wins, and
      the split by false index, counted game by game. */
  method CountGames(throws: seq<Throw>) returns (player: nat, house: nat, outcomes: map<int, Split>)
    ensures player == PlayerWins(throws)
    ensures player + house == |throws|
    ensures outcomes == Gather(throws)
  {
    player, house := 0, 0;
    outcomes := map[];
    var i := 0;
    while i < |throws|
      invariant i <= |throws|
      invariant player == PlayerWins(throws[..i])
      invariant player + house == i
      invariant outcomes == Gather(throws[..i])
    {
      var t := throws[i];
      var f := FindFalseStatement(t.dice);
      CountStep(throws, i);
      outcomes := Count(outcomes, f, t.guess == f);
      if t.guess == f {
        player := player + 1;
      } else {
        house := house + 1;
      }
      i := i + 1;
    }
    TakeAll(throws);
  }

  /** simulate_game: count the player's and the house's wins and split them
      by the index of the false statement, then report an entry for each
      index that occurred. The player wins a game exactly when the guess is
      that index. Every reported entry has occurrences, and the entries
      together account for every game. */
  method SimulateGame(throws: seq<Throw>) returns (report: GameReport)
    requires |throws| > 0
    ensures report.simulations == |throws|
    ensures report.playerWins == PlayerWins(throws)
    ensures report.playerWins + report.houseWins == |throws|
    ensures forall i :: 0 <= i < |report.breakdown| ==>
      var e := report.breakdown[i];
      && e.index < 3
      && e.statement == StatementNames[e.index]
      && e.occurrences == Occurrences(throws, e.index) > 0
      && e.playerWins == WinsAt(throws, e.index)
      && e.playerWins + e.houseWins == e.occurrences
    ensures forall k :: 0 <= k < 3 && Occurrences(throws, k) > 0 ==> HasIndex(report.breakdown, k)
    ensures IndexOrdered(report.breakdown)
    ensures SumOccurrences(report.breakdown) == |throws|
  {
    var player, house, outcomes := CountGames(throws);
    GatherGathered(throws);
    BreakdownReports(outcomes, throws);
    BreakdownTotal(outcomes, throws);
    report := GameReport(|throws|, player, house, BreakdownFrom(outcomes, 0));
  }
}

=== FILE: wrappers.dfy ===
/** The optional-value datatype used for lookups that may find nothing. */
module Wrappers {

  datatype Option<+T> = None | Some(value: T)
}
